=== FILE: README.md ===
# SEO keyword pipeline, modelled in Dafny

The modelled service turns one seed phrase into a ranked shortlist of SEO keywords:

1. **Expand.** The seed is sent to a local text-generation backend and the raw reply is parsed into keyword candidates. When the backend is unavailable, the seed is instantiated in a fixed catalogue of phrase templates instead.
2. **Analyze.** Every candidate gets a monthly volume, a competition level and (for one analyzer) a cost per click. These come from a ranking API when it answers, otherwise from a heuristic estimate. From them follow an opportunity score and a difficulty label.
3. **Rank.** The records are sorted by descending opportunity and truncated (50 per request; 10 per seed and 10 seeds in a batch).

Modules, one concern each:

| module | file | models |
|---|---|---|
| `Wrappers` | wrappers.dfy | `Option` |
| `Text` | text.dfy | Python's `isspace`, `strip`, `split`, `len(s.split())`, `lower`, and substring tests |
| `Dedup` | dedup.dfy | `list(set(xs))[:cap]` |
| `ResponseParse` | response_parse.dfy | parsing a generated reply (numbering and quote removal, the nested split loop) |
| `Expansion`, `AppExpander`, `StandaloneExpander` | expansion.dfy, app_expander.dfy, standalone_expander.dfy | the two `KeywordExpander` classes (backend/app.py, backend/keyword_expander.py) |
| `Scoring`, `Ranking` | scoring.dfy, ranking.dfy | the opportunity scores, difficulty label, commercial boost, and the stable sort with truncation |
| `Remote` | remote.dfy | the replies of remote services, as data |
| `SeRanking` | se_ranking.dfy | `SERankingAnalyzer` (backend/app.py) |
| `RealSeo` | real_seo.dfy | `RealSEOAnalyzer` (backend/real_seo_analyzer.py) |
| `SeoHeuristic` | seo_heuristic.dfy | `SEOAnalyzer` (backend/seo_analyzer.py) |
| `Pipeline` | pipeline.dfy | the bodies of the `/generate-keywords` and `/batch-keywords` handlers |
| `Arith` | arith.dfy | floor-division facts used by the volume estimates |

Where the code changes state step by step, the model is imperative:
- the parse loops;
- the dedup;
- the city loop of the standalone fallback;
- the `analyze` loops;
- the first-match loop with `break` in `SEOAnalyzer`;
- the handler loops.

Each of these methods is proved against a function or predicate that specifies it. Expressions and conditionals are modelled as functions.

Remote services, randomness and set iteration order become inputs:
- Talking to the generation backend is an `Outcome`: the probe failed; generation failed (including any exception); or generation succeeded with a text.
- Each ranking-API call is an `HttpReply`. The request either raised, or yielded a status code and a body that decoded to a `Json` value (or did not decode).
- The organic-search call of `RealSEOAnalyzer` is a `SearchReply`, carrying the `link` of each result.
- Each `random.randint` draw is a parameter. The analyzers take a draw inside the range the source draws from, as a precondition. The handlers take any integer and reduce it into the keyword's band with `SeRanking.BandDraw`, which keeps a draw that is already in the band.
- `list(set(xs))[:cap]` is specified by `Dedup.IsCappedDedup`: a duplicate-free list drawn from `xs`, of length `min(#distinct, cap)`, holding every distinct element when they fit. `Dedup.DedupCap` picks its elements with `:|`, so no order is promised.

These behaviours follow the code:
- A generation reply with status 200 whose fragments are all at most two characters long yields the empty list. It does not yield the fallback (`AppExpander.Expand`).
- When the SE Ranking lookup fails gracefully (connection error, non-200 replies, a body that does not decode, a first suggestion that is not an object), the record holds the estimate but is labelled "SE Ranking API". The label "Estimated (API Fallback)" appears only when the API supplied a non-numeric metric and the score computation raised (`SeRanking.AnalyzeOne`, `SeRanking.ConnectionErrorLabelledAsApi`).
- `RealSEOAnalyzer` behaves the same way: the estimate computed inside `_get_serpapi_data` is labelled "SerpAPI", and "Estimated" appears only when the trends volume is not a number.
- The analysis endpoint is consulted whenever the suggestion request did not raise and the suggestion reply is not a decodable 200 list with at least one entry. That includes a 200 reply holding an object or an empty list. A 200 suggestion reply that does not decode goes straight to the estimate.

## Model

| member | source | states |
|---|---|---|
| `Text.Strip` | backend/app.py:56 | the stripped fragment starts and ends with a non-whitespace character and has no characters the input lacks |
| `Text.StripRemovesOnlyEnds` | backend/app.py:56-57 | stripping gives the empty string exactly when the input is all whitespace, and leaves an already trimmed string unchanged |
| `Text.StripIsInfix` | backend/app.py:56 | the stripped string is the infix of the input that starts after the leading whitespace |
| `Text.StripDropsOnlyWhitespace` | backend/app.py:56 | everything before and after that infix is whitespace |
| `Text.Split` | backend/app.py:54-55 | `split(c)` gives at least one piece; no piece contains the separator or a character the input lacks |
| `Text.SplitJoin` | backend/app.py:54-55 | joining the pieces of `split(c)` with `c` gives back the input |
| `Text.WordCount` | backend/app.py:232 | `len(s.split())` is at most the length of `s` |
| `Text.NonSpaceHasWord` | backend/real_seo_analyzer.py:97 | a string with a non-whitespace character has at least one word |
| `Text.NoWordsAllSpace` | backend/real_seo_analyzer.py:97 | a string has no words exactly when it is all whitespace |
| `Dedup.DedupCap` | backend/app.py:60-62 | `list(set(xs))[:cap]`: duplicate-free, drawn from `xs`, of length `min(#distinct, cap)`, holding every distinct element when they fit |
| `ResponseParse.NumberingLength` | backend/app.py:49 | the match of `\d+\.\s*` at the start of a line: when it matches, the digit run, then a full stop, then all the whitespace that follows, up to a non-whitespace character or the end; its length is 0 when there is no match |
| `ResponseParse.NumberingMatches` | backend/app.py:49 | the numbering pattern matches at the start exactly when a non-empty run of digits is followed by a full stop |
| `ResponseParse.DigitRun` | backend/app.py:49 | `\d+` takes the maximal run of leading digits: all digits, and followed by a non-digit or the end |
| `ResponseParse.SpaceRun` | backend/app.py:49 | the greedy `\s*` takes the maximal run of leading whitespace |
| `ResponseParse.StripNumbering` | backend/app.py:49 | the multiline numbering removal never lengthens the text and never introduces characters; at a line start that holds numbering it shortens the text by at least the numbering's length |
| `ResponseParse.NoNumberingUnchanged` | backend/app.py:49 | text without a full stop is left unchanged by the numbering removal |
| `ResponseParse.NumberingRemovedOnLine` | backend/app.py:49 | on a single line that starts with numbering, exactly the numbering is removed and the rest of the line is kept as it is |
| `ResponseParse.NumberingKeptMidLine` | backend/app.py:49 | numbering is removed only at a line start: text without a newline that does not start a line is unchanged |
| `ResponseParse.RemoveQuotes` | backend/app.py:50 | the result holds no `"` or `'`, every other character as often as in the input, and is shorter by exactly the number of quotes; quote-free text is unchanged |
| `ResponseParse.RemoveQuotesConcat` | backend/app.py:50 | quotes are deleted in place: the removal distributes over concatenation, so with the one-character cases the other characters keep their order |
| `ResponseParse.FragmentsWellFormed` | backend/app.py:52-58 | every kept fragment of a cleaned reply is trimmed, longer than two characters, and free of `,`, newlines and quotes |
| `ResponseParse.AppendKept` | backend/app.py:55-58 | the inner loop appends exactly the stripped comma parts of a line that are longer than two characters, in order |
| `ResponseParse.CollectKeywords` | backend/app.py:53-58 | the nested loop builds exactly the fragment list of the text, line by line |
| `ResponseParse.ParseKeywords` | backend/app.py:46-62 | the parsed keywords are a capped dedup of the reply's fragments, each well formed |
| `Expansion.InstancesContainSeed` | backend/app.py:74-128 | every templated phrase contains the seed and is the instance of one template |
| `Expansion.InstanceHasWord` | backend/app.py:74-128 | a template that adds at least three characters and whose prefix or suffix starts a word gives a phrase longer than two characters with at least one word, whatever the seed |
| `Expansion.DrawnFromInstances` | backend/app.py:128-132 | every entry drawn from such templates' phrases contains the seed, is longer than two characters, has a word and is a template instance |
| `Expansion.SuffixPhrasesCount` | backend/app.py:74-128 | suffix-only templates with different suffixes give at least that many different phrases for any seed |
| `AppExpander.CatalogueHasFiftyThreePhrases` | backend/app.py:74-128 | the catalogue yields at least 53 different phrases for every seed |
| `AppExpander.CatalogueHasAffixWords` | backend/app.py:74-128 | every catalogue template adds at least three characters (the shortest, " uk", adds three) and a word around the seed |
| `AppExpander.MockKeywords` | backend/app.py:72-132 | the fallback is the 82-template catalogue instantiated for the seed, deduplicated and capped: exactly 50 keywords |
| `AppExpander.MockOutputShape` | backend/app.py:72-132 | a fallback list has exactly 50 distinct keywords, each a template instance containing the seed, longer than two characters and with at least one word |
| `AppExpander.Expand` | backend/app.py:17-70 | generation success gives the capped dedup of well-formed fragments, or `[]` when no fragment survives; a failed probe or generation gives the fallback of exactly 50; never more than 50 keywords |
| `AppExpander.ExpansionHasWords` | backend/app.py:17-132 | every keyword of an expansion, parsed or from the fallback, is longer than two characters and has at least one word |
| `StandaloneExpander.AllCityTemplates` | backend/keyword_expander.py:116-123 | four templates per city |
| `StandaloneExpander.MockPatterns` | backend/keyword_expander.py:82-123 | the loop that extends the pattern list yields the 30 base phrases, then four phrases per city: 58 patterns in order |
| `StandaloneExpander.CityTemplateAt` | backend/keyword_expander.py:117-119 | the group of the i-th city opens with its "{seed} in {city}" template |
| `StandaloneExpander.MockKeywords` | backend/keyword_expander.py:80-125 | the cap of 80 is never reached: the fallback is exactly the set of distinct patterns, at most 58, each containing the seed |
| `StandaloneExpander.MockCoversCities` | backend/keyword_expander.py:116-125 | for every one of the seven cities, "{seed} in {city}" is in the fallback |
| `StandaloneExpander.Expand` | backend/keyword_expander.py:9-78 | generation success gives the capped dedup (cap 100) of well-formed fragments; a failed probe or generation gives the fallback; never more than 100 keywords |
| `StandaloneExpander.CatalogueHasAffixWords` | backend/keyword_expander.py:82-123 | every template of the 30 base phrases and the city groups adds at least three characters and a word around the seed, whatever the city |
| `StandaloneExpander.ExpansionHasWords` | backend/keyword_expander.py:9-125 | every keyword of an expansion is longer than two characters and has at least one word |
| `Scoring.OpportunityScore3` | backend/app.py:268-282 | the three-factor score lies in [0, 100] for volume ≥ 0, competition in [0, 100] and cpc ≥ 0 |
| `Scoring.Score3Monotone` | backend/app.py:270-280 | the three-factor score never falls as volume or cpc rises or as competition falls |
| `Scoring.Score3Saturates` | backend/app.py:271-277 | once volume ≥ 10000 and cpc ≥ 10 the three-factor score is 100 − 0.4 × competition, whatever the exact volume and cpc |
| `Scoring.Score3VolumeSaturates` | backend/app.py:270-271 | once volume reaches 10000, a higher volume does not change the three-factor score, whatever the competition and cpc |
| `Scoring.Score3CpcSaturates` | backend/app.py:276-277 | once cpc reaches 10, a higher cpc does not change the three-factor score, whatever the volume and competition |
| `Scoring.OpportunityScore2` | backend/real_seo_analyzer.py:113-116 | the two-factor score lies in [0, 100] for volume ≥ 0 and competition in [0, 100] |
| `Scoring.Score2Monotone` | backend/seo_analyzer.py:71-81 | the two-factor score never falls as volume rises or as competition falls |
| `Scoring.Score2Saturates` | backend/seo_analyzer.py:73 | once volume ≥ 10000 the two-factor score is 100 − 0.6 × competition |
| `Scoring.DifficultyLabel` | backend/app.py:284-294 | each label holds exactly on its interval: < 30, [30, 50), [50, 70), [70, 85), ≥ 85 |
| `Scoring.DifficultyMonotone` | backend/real_seo_analyzer.py:118-123 | higher competition never gives an easier label |
| `Scoring.DifficultyBoundaries` | backend/seo_analyzer.py:83-93 | each threshold belongs to the harder label: 29.9 is "Very Easy" and 30 is "Easy", and so on up to 85 |
| `Scoring.CommercialBoost` | backend/app.py:258-261 | the commercial adjustment never lowers competition and never exceeds 95; it changes it exactly when a commercial term occurs and the competition is below 95; it adds at most 20, and with a commercial term the result is competition + 20 or the cap 95 |
| `Ranking.InsertByScore` | backend/app.py:402 | inserting a record adds exactly that record to the multiset |
| `Ranking.InsertSorted` | backend/app.py:402 | inserting into a descending sequence keeps it descending |
| `Ranking.SortByScore` | backend/app.py:402 | the sort is ordered by descending score and is a permutation of its input |
| `Ranking.SortIsStable` | backend/app.py:402 | records with equal scores keep their input order, as in Python's stable `sorted` |
| `Ranking.Top` | backend/app.py:365 | `sorted(...)[:cap]` is the sorted prefix of length `min(n, cap)`; its records come from the input, and every omitted record scores no higher than every kept one |
| `Remote.Get` | backend/app.py:200-202 | `.get(key, default)` succeeds exactly on objects and gives the default for a missing key |
| `SeRanking.IntentVolume` | backend/app.py:236-244 | base volume 2500, 1800, 1200 or 1000, each exactly when its intent group is the first group that matches |
| `SeRanking.EstimatedVolume` | backend/app.py:236-248 | the estimated volume lies in [100, 2500], is at most the intent base, and equals it for at most three words |
| `SeRanking.EnhancedEstimate` | backend/app.py:230-266 | competition is the band draw after the commercial boost, in [15, 95]; cpc is competition/50 from competition 25 on and exactly 0.5 below it, so it lies in [0.5, 1.9] |
| `SeRanking.BandDraw` | backend/app.py:252-256 | the draw lies in the band of the keyword's word count; a draw already in the band is kept |
| `SeRanking.ReadMetrics` | backend/app.py:199-202 | the metrics can be read exactly when the value is an object |
| `SeRanking.FetchMetrics` | backend/app.py:175-228 | a raised suggestion request, or a 200 suggestion reply that does not decode, goes straight to the estimate; a non-empty suggestion list's first entry decides, giving metrics exactly when it is an object; otherwise the analysis reply decides, giving metrics exactly when it is a decodable 200 object; metrics come only from a decodable 200 reply |
| `SeRanking.SuggestionsFirst` | backend/app.py:192-204 | a non-empty suggestion list decides alone: its first entry gives the metrics when it is an object, otherwise the estimate is used; the analysis reply is irrelevant |
| `SeRanking.MetricDefaults` | backend/app.py:200-202 | missing fields default to volume 100, competition 50, cpc 1.0 |
| `SeRanking.AnalysisSecond` | backend/app.py:206-221 | otherwise a decodable 200 analysis reply supplies the metrics under the key "competition" |
| `SeRanking.NoMetricsWithoutSuccess` | backend/app.py:223-228 | without a decodable 200 reply from either endpoint the estimate is used |
| `SeRanking.AnalyzeOne` | backend/app.py:139-173 | the record carries the keyword, the three-factor score of its own numbers and the matching label; numeric API metrics are carried as they are, labelled "SE Ranking API"; "Estimated (API Fallback)" exactly when the API metrics are not all numbers; estimated records lie within the estimator's bounds |
| `SeRanking.ConnectionErrorLabelledAsApi` | backend/app.py:143-157 | a connection error yields the estimate but the label "SE Ranking API" |
| `SeRanking.Analyze` | backend/app.py:139-173 | the loop emits one record per keyword, in input order |
| `RealSeo.EstimateData` | backend/real_seo_analyzer.py:95-111 | the estimate raises exactly for a keyword with no words; otherwise volume lies in [10, 1000] and competition is 70 for at most two words, 45 for three and 20 from four on |
| `RealSeo.EstimateNonIncreasing` | backend/real_seo_analyzer.py:97-109 | more words never raise the estimated volume or competition |
| `RealSeo.ExpandedKeywordsEstimate` | backend/real_seo_analyzer.py:97-101 | a keyword either expander can produce never makes the estimate or the analysis raise |
| `RealSeo.ParsedKeywordEstimate` | backend/real_seo_analyzer.py:97-101 | a parsed keyword always has a word, so its estimate exists |
| `RealSeo.BigDomainCount` | backend/real_seo_analyzer.py:83-85 | the count of results that mention a big domain is at most the number of results |
| `RealSeo.CompetitionFromCount` | backend/real_seo_analyzer.py:87 | `min(95, 15n + 10)` lies in [10, 95] and reaches 95 exactly from six big-domain results on |
| `RealSeo.CompetitionMonotone` | backend/real_seo_analyzer.py:87 | more big-domain results never lower the competition |
| `RealSeo.AnalyzeCompetition` | backend/real_seo_analyzer.py:66-93 | competition lies in [10, 95]; a failed search gives 50 and no results give 10 |
| `RealSeo.MoreBigDomainsMoreCompetition` | backend/real_seo_analyzer.py:84-87 | one more result never lowers the count or the competition |
| `RealSeo.TrendsVolume` | backend/real_seo_analyzer.py:57 | a missing key at any of the three levels gives 100; a present `value` is returned as it is; a body or nested value that is not an object raises |
| `RealSeo.SerpApiData` | backend/real_seo_analyzer.py:42-64 | it raises exactly when the trends volume cannot be read and the keyword has no words; the live pair is returned exactly when a decodable 200 trends reply yields a volume, carrying that volume with a competition in [10, 95] (50 after a failed search); otherwise the estimate is returned, with volume in [10, 1000] and competition 20, 45 or 70 |
| `RealSeo.AnalyzeOne` | backend/real_seo_analyzer.py:9-40 | the record carries the keyword, the two-factor score of its numbers and the matching label, with competition in [10, 95]; a numeric trends volume is carried with the search competition as "SerpAPI"; when the trends volume cannot be read, the estimate is carried as "SerpAPI"; it exists whenever the keyword has a word |
| `RealSeo.AnalyzeOneSource` | backend/real_seo_analyzer.py:12-38 | for a keyword with words, "Estimated" exactly when the trends volume is not a number |
| `RealSeo.Analyze` | backend/real_seo_analyzer.py:9-40 | the loop emits one record per keyword, in input order, and fails exactly when some keyword's estimate raises |
| `SeoHeuristic.RangesWithinBounds` | backend/seo_analyzer.py:5-16 | every volume range lies within [100, 10000] |
| `SeoHeuristic.FirstMatch` | backend/seo_analyzer.py:40-43 | the chosen pattern is contained in the keyword and no earlier pattern is; without a choice, no pattern is contained |
| `SeoHeuristic.SearchVolumeBounds` | backend/seo_analyzer.py:36-50 | the volume lies in [10, 10000], and is 100 when no pattern matches and the keyword has at most three words |
| `SeoHeuristic.EstimateSearchVolume` | backend/seo_analyzer.py:36-50 | the loop with `break` computes the first-match volume, then the long-tail division |
| `SeoHeuristic.EstimateCompetition` | backend/seo_analyzer.py:52-69 | the competition lies in [10, 95], is at least the draw, equals it without a commercial term, is the draw plus 20 or the cap 95 with one, never more than the draw plus 20, and is at least 70 for at most two words |
| `SeoHeuristic.Analyze` | backend/seo_analyzer.py:18-34 | one record per keyword, in input order, with the keyword, its estimates, the two-factor score in [0, 100] and the matching label |
| `Pipeline.Analyzed` | backend/app.py:399 | the analyzer's records, one per expanded keyword and carrying it |
| `Pipeline.Fitted` | backend/app.py:252-256 | the outside world of one keyword with its draw reduced into the band; a draw already in the band is kept |
| `Pipeline.AnalyzeAndRank` | backend/app.py:399-402 | the analyzed records ranked and cut to `cap`; length `min(n, cap)`, ordered, each about an expanded keyword |
| `Pipeline.GenerateKeywords` | backend/app.py:379-414 | a blank seed (default "digital marketing", stripped) is refused; otherwise the reply holds the stripped seed, all expanded keywords ranked (at most 50), and `total_generated` equal to the expansion's size; the expansion is the parsed reply when generation succeeded and the 50-keyword fallback otherwise |
| `Pipeline.BatchEntry` | backend/app.py:429-439 | one seed's entry is built from an expansion the expander returns for that seed: that expansion analyzed, ranked and cut to its best ten, with its size |
| `Pipeline.BatchResultShape` | backend/app.py:429-439 | an entry built from an expansion names its seed, counts at most 50 keywords and holds the best `min(n, 10)` in descending order; for a failed backend, exactly 50 and each containing the seed |
| `Pipeline.EntryKeywordsFrom` | backend/app.py:429-436 | every keyword of an entry comes from the expansion it was built from |
| `Pipeline.BatchKeywords` | backend/app.py:416-450 | an empty list is refused; otherwise `min(len, 10)` entries in request order, the t-th built from an expansion of the t-th seed, and `total_processed` equal to that count |

## Left out

- Flask routing, CORS, `app.run`, and the home and health endpoints are HTTP plumbing and are not modelled (backend/app.py:1-10, 318-344, 455-466).
- The `/n8n-webhook` route and `N8NIntegration` are not modelled. Their ranking step is the same `Ranking.Top` with cap 50 (backend/app.py:365).
- The HTTP requests, their timeouts and `.json()` decoding are not modelled. They become the `Outcome`, `HttpReply`, `Json` and `SearchReply` inputs.
- The exact reason a generation attempt failed is not modelled: every failure reason maps to the same fallback.
- `random.randint` is not modelled. Each draw is a parameter: an analyzer requires it in its band, and the handlers reduce any integer into the band (`Pipeline.Fitted`).
- `SeRanking.AnalyzeOne` uses one draw per keyword. The source can call the estimator from two places, but at most one of them runs for a given keyword.
- Python's `round(x, 2)` and binary floating point are not modelled. Scores are exact reals, and cpc is `competition / 50` without rounding.
- `Ranking.SortIsStable`: ties are between exact real scores. The source rounds each score to two decimals before sorting, so two records whose scores differ only after the second decimal tie in the source and are ordered by score in the model.
- Set iteration order is not modelled. Only the properties in `Dedup.IsCappedDedup` are promised.
- `\d` in the numbering pattern is modelled as the ASCII digits only. `str.lower()` lowercases only ASCII letters. Whitespace is the fixed set of characters for which Python's `isspace` holds.
- JSON booleans, strings and null are one non-numeric kind (`Json.JOther`). Python's arithmetic would accept `true`/`false` as 1/0.
- In `RealSeo.SearchReply`, an organic-results payload that cannot be read (not an object, entries that are not objects, links that are not strings) is treated as a failed search (competition 50).
- `Pipeline.BatchKeywords` takes the seeds as a list of strings. So the rejection of a payload that is not a list (backend/app.py:424) and the per-seed error entry (backend/app.py:440-444) are not modelled; for string seeds that entry is unreachable.
- `print` logging, the API keys read from the environment and the prompt texts are not modelled.

=== FILE: app_expander.dfy ===
/**
 * The keyword expander of the web service (`KeywordExpander` in
 * backend/app.py): ask the generation backend for variations of the seed,
 * or fall back to a fixed catalogue of phrase templates.
 */
module AppExpander {
  import opened Text
  import opened Dedup
  import opened ResponseParse
  import opened Expansion

  /** At most this many keywords are kept from a generated reply. */
  const ReplyCap: nat := 50

  /** At most this many fallback phrases are returned. */
  const MockCap: nat := 50

  // The fallback catalogue, section by section in source order. Runs of
  // suffix-only templates are written as their suffixes.

  const BasicTemplates: seq<Template> := [
      Template("best ", ""), Template("how to ", ""), Template("", " for beginners"),
      Template("affordable ", ""), Template("", " near me"), Template("", " 2024"),
      Template("free ", ""), Template("professional ", ""), Template("", " tips"),
      Template("", " course"), Template("", " tutorial"), Template("what is ", ""),
      Template("learn ", ""), Template("", " guide"), Template("", " tools")
    ]

  const StrategyAfters: seq<string> := [
      " strategies", " techniques", " examples", " ideas", " plan", " checklist",
      " template", " software", " platform", " agency", " consultant", " expert"
    ]

  const ServiceAfters: seq<string> := [
      " services", " solutions", " company", " trends 2024", " statistics", " data",
      " analysis", " report", " case study"
    ]

  const SuccessAfters: seq<string> := [
      " success stories", " benefits", " advantages", " vs traditional marketing",
      " best practices", " for small business", " for startups"
    ]

  const UseCaseAfters: seq<string> := [
      " for ecommerce", " for local business", " on a budget", " without spending money",
      " quick start", " step by step", " ultimate guide", " complete course"
    ]

  const QuestionTemplates: seq<Template> := [
      Template("how to start ", ""), Template("why ", " is important"),
      Template("when to use ", ""), Template("where to learn ", ""),
      Template("which ", " tools are best"), Template("what is the cost of ", ""),
      Template("is ", " worth it"), Template("how much does ", " cost")
    ]

  const ComparisonAfters: seq<string> := [" vs social media marketing", " alternatives", " compared to"]

  const ComparisonTemplates: seq<Template> :=
    Suffixes(ComparisonAfters) + [Template("best ", " strategies")]

  const CityAfters: seq<string> := [" in new york", " services london"]

  const CountryAfters: seq<string> := [" near me", " in usa", " uk", " australia"]

  const GeographicTemplates: seq<Template> :=
    Suffixes(CityAfters) + [Template("best ", " los angeles")] + Suffixes(CountryAfters)

  const AdvancedAfters: seq<string> := [" masterclass", " certification", " training", " workshop", " webinar"]

  const AdvancedTemplates: seq<Template> := [Template("advanced ", "")] + Suffixes(AdvancedAfters)

  const FurtherAfters: seq<string> := [" optimization", " management", " automation"]

  const FurtherTemplates: seq<Template> :=
    [Template("effective ", ""), Template("successful ", ""), Template("proven ", " methods")]
    + Suffixes(FurtherAfters)

  /** The whole fallback catalogue, in source order (82 templates; "{seed} near me"
      occurs twice). */
  const MockTemplates: seq<Template> :=
    BasicTemplates + Suffixes(StrategyAfters) + Suffixes(ServiceAfters)
    + Suffixes(SuccessAfters) + Suffixes(UseCaseAfters) + QuestionTemplates
    + ComparisonTemplates + GeographicTemplates + AdvancedTemplates + FurtherTemplates

  /** The suffixes of every suffix-only template outside the basic section. */
  const CountedAfters: seq<string> :=
    StrategyAfters + ServiceAfters + SuccessAfters + UseCaseAfters
    + ComparisonAfters + CityAfters + CountryAfters + AdvancedAfters + FurtherAfters

  // The counted suffixes in three groups; each group is duplicate-free and
  // no two groups share a suffix.

  const StrategyServiceAfters: seq<string> := StrategyAfters + ServiceAfters

  const SuccessUseCaseAfters: seq<string> := SuccessAfters + UseCaseAfters

  const OtherAfters: seq<string> :=
    ComparisonAfters + CityAfters + CountryAfters + AdvancedAfters + FurtherAfters

  lemma StrategyServiceDistinct()
    ensures Distinct(StrategyServiceAfters)
  {
  }

  lemma SuccessUseCaseDistinct()
    ensures Distinct(SuccessUseCaseAfters)
  {
  }

  lemma OtherDistinct()
    ensures Distinct(OtherAfters)
  {
  }

  lemma FirstGroupsDisjoint()
    ensures Disjoint(StrategyServiceAfters, SuccessUseCaseAfters)
  {
  }

  lemma FirstOtherDisjoint()
    ensures Disjoint(StrategyServiceAfters, OtherAfters)
  {
  }

  lemma SecondOtherDisjoint()
    ensures Disjoint(SuccessUseCaseAfters, OtherAfters)
  {
  }

  lemma CountedAftersDistinct()
    ensures |CountedAfters| == 53 && Distinct(CountedAfters)
  {
    var g1, g2, g3 := StrategyServiceAfters, SuccessUseCaseAfters, OtherAfters;
    StrategyServiceDistinct();
    SuccessUseCaseDistinct();
    OtherDistinct();
    FirstGroupsDisjoint();
    FirstOtherDisjoint();
    SecondOtherDisjoint();
    DistinctConcat(g1, g2);
    assert Disjoint(g1 + g2, g3) by {
      forall i, j | 0 <= i < |g1 + g2| && 0 <= j < |g3|
        ensures (g1 + g2)[i] != g3[j]
      {
        if i >= |g1| {
          assert (g1 + g2)[i] == g2[i - |g1|];
        }
      }
    }
    DistinctConcat(g1 + g2, g3);
    assert CountedAfters == g1 + g2 + g3;
  }

  /** For every seed the catalogue yields at least 53 different phrases: the
      suffix-only templates outside the basic section all have different
      suffixes, and prepending the same seed keeps them apart. */
  lemma CatalogueHasFiftyThreePhrases(seed: string)
    ensures |Elements(Instances(MockTemplates, seed))| >= 53
  {
    CountedAftersDistinct();
    forall a | a in CountedAfters
      ensures Template("", a) in MockTemplates
    {
      if a in StrategyAfters {
        SuffixIn(StrategyAfters, a);
      } else if a in ServiceAfters {
        SuffixIn(ServiceAfters, a);
      } else if a in SuccessAfters {
        SuffixIn(SuccessAfters, a);
      } else if a in UseCaseAfters {
        SuffixIn(UseCaseAfters, a);
      } else if a in ComparisonAfters {
        SuffixIn(ComparisonAfters, a);
      } else if a in CityAfters {
        SuffixIn(CityAfters, a);
      } else if a in CountryAfters {
        SuffixIn(CountryAfters, a);
      } else if a in AdvancedAfters {
        SuffixIn(AdvancedAfters, a);
      } else {
        SuffixIn(FurtherAfters, a);
      }
    }
    SuffixPhrasesCount(MockTemplates, CountedAfters, seed);
  }

  lemma BasicHasAffixWords()
    ensures AllHaveAffixWords(BasicTemplates)
  {
  }

  lemma QuestionHasAffixWords()
    ensures AllHaveAffixWords(QuestionTemplates)
  {
  }

  lemma SuffixSectionsHaveAffixWords()
    ensures AllHaveAffixWords(Suffixes(StrategyAfters))
    ensures AllHaveAffixWords(Suffixes(ServiceAfters))
    ensures AllHaveAffixWords(Suffixes(SuccessAfters))
    ensures AllHaveAffixWords(Suffixes(UseCaseAfters))
  {
    SuffixesHaveWords(StrategyAfters);
    SuffixesHaveWords(ServiceAfters);
    SuffixesHaveWords(SuccessAfters);
    SuffixesHaveWords(UseCaseAfters);
  }

  lemma LaterSectionsHaveAffixWords()
    ensures AllHaveAffixWords(ComparisonTemplates)
    ensures AllHaveAffixWords(GeographicTemplates)
    ensures AllHaveAffixWords(AdvancedTemplates)
    ensures AllHaveAffixWords(FurtherTemplates)
  {
    SuffixesHaveWords(ComparisonAfters);
    AllHaveAffixWordsConcat(Suffixes(ComparisonAfters), [Template("best ", " strategies")]);
    SuffixesHaveWords(CityAfters);
    SuffixesHaveWords(CountryAfters);
    AllHaveAffixWordsConcat(Suffixes(CityAfters), [Template("best ", " los angeles")]);
    AllHaveAffixWordsConcat(Suffixes(CityAfters) + [Template("best ", " los angeles")], Suffixes(CountryAfters));
    SuffixesHaveWords(AdvancedAfters);
    AllHaveAffixWordsConcat([Template("advanced ", "")], Suffixes(AdvancedAfters));
    SuffixesHaveWords(FurtherAfters);
    AllHaveAffixWordsConcat(
      [Template("effective ", ""), Template("successful ", ""), Template("proven ", " methods")],
      Suffixes(FurtherAfters));
  }

  /** Every catalogue template adds a word around the seed. */
  lemma CatalogueHasAffixWords()
    ensures AllHaveAffixWords(MockTemplates)
  {
    BasicHasAffixWords();
    QuestionHasAffixWords();
    SuffixSectionsHaveAffixWords();
    LaterSectionsHaveAffixWords();
    var a := BasicTemplates + Suffixes(StrategyAfters);
    AllHaveAffixWordsConcat(BasicTemplates, Suffixes(StrategyAfters));
    AllHaveAffixWordsConcat(a, Suffixes(ServiceAfters));
    a := a + Suffixes(ServiceAfters);
    AllHaveAffixWordsConcat(a, Suffixes(SuccessAfters));
    a := a + Suffixes(SuccessAfters);
    AllHaveAffixWordsConcat(a, Suffixes(UseCaseAfters));
    a := a + Suffixes(UseCaseAfters);
    AllHaveAffixWordsConcat(a, QuestionTemplates);
    a := a + QuestionTemplates;
    AllHaveAffixWordsConcat(a, ComparisonTemplates);
    a := a + ComparisonTemplates;
    AllHaveAffixWordsConcat(a, GeographicTemplates);
    a := a + GeographicTemplates;
    AllHaveAffixWordsConcat(a, AdvancedTemplates);
    a := a + AdvancedTemplates;
    AllHaveAffixWordsConcat(a, FurtherTemplates);
    a := a + FurtherTemplates;
    assert a == MockTemplates;
  }

  /** `_generate_mock_keywords(seed)`: whatever `list(set(patterns))[:50]` returns. */
  ghost predicate IsMockOutput(keywords: seq<string>, seed: string)
  {
    IsCappedDedup(keywords, Instances(MockTemplates, seed), MockCap)
  }

  /** `_generate_mock_keywords`: the catalogue instantiated for the seed,
      deduplicated and capped. The catalogue always has more than 50 different
      phrases, so exactly 50 come back. */
  method MockKeywords(seed: string) returns (keywords: seq<string>)
    ensures IsMockOutput(keywords, seed)
    ensures |keywords| == MockCap
  {
    keywords := DedupCap(Instances(MockTemplates, seed), MockCap);
    CatalogueHasFiftyThreePhrases(seed);
  }

  /** A fallback list holds exactly 50 distinct keywords, each an instance of a
      catalogue template and so containing the seed, longer than two characters
      and with at least one word. */
  lemma MockOutputShape(keywords: seq<string>, seed: string)
    requires IsMockOutput(keywords, seed)
    ensures |keywords| == 50 && Distinct(keywords)
    ensures forall k :: k in keywords ==>
      Contains(k, seed) && |k| > 2 && WordCount(k) >= 1
      && exists t :: t in MockTemplates && k == t.Instance(seed)
  {
    CatalogueHasFiftyThreePhrases(seed);
    CatalogueHasAffixWords();
    DrawnFromInstances(keywords, MockTemplates, seed);
  }

  /** What `expand(seed)` returns for a given backend outcome: the parsed reply
      when generation succeeded, the fallback list otherwise. */
  ghost predicate IsExpansion(keywords: seq<string>, seed: string, outcome: Outcome)
  {
    if outcome.Generated? then
      IsCappedDedup(keywords, Fragments(Clean(outcome.text)), ReplyCap)
      && forall k :: k in keywords ==> WellFormedKeyword(k)
    else IsMockOutput(keywords, seed)
  }

  /** `expand(seed)`: the parsed reply when generation succeeded, the fallback
      list when the probe or the generation failed. A successful reply whose
      fragments are all too short gives the empty list, not the fallback. */
  method Expand(seed: string, outcome: Outcome) returns (keywords: seq<string>)
    ensures IsExpansion(keywords, seed, outcome)
    ensures outcome.Generated? ==>
      IsCappedDedup(keywords, Fragments(Clean(outcome.text)), ReplyCap)
      && forall k :: k in keywords ==> WellFormedKeyword(k)
    ensures outcome.Generated? && Fragments(Clean(outcome.text)) == [] ==> keywords == []
    ensures !outcome.Generated? ==> IsMockOutput(keywords, seed) && |keywords| == 50
    ensures |keywords| <= 50
  {
    match outcome
    case ProbeFailed =>
      keywords := MockKeywords(seed);
    case GenerationFailed =>
      keywords := MockKeywords(seed);
    case Generated(text) =>
      keywords := ParseKeywords(text, ReplyCap);
  }

  /** Every keyword an expansion returns is longer than two characters and has
      at least one word: a parsed one is stripped and passed the length filter,
      and a fallback one carries at least three characters and a word from its
      template. */
  lemma ExpansionHasWords(keywords: seq<string>, seed: string, outcome: Outcome)
    requires IsExpansion(keywords, seed, outcome)
    ensures forall k :: k in keywords ==> |k| > 2 && WordCount(k) >= 1
  {
    if outcome.Generated? {
      forall k | k in keywords
        ensures |k| > 2 && WordCount(k) >= 1
      {
        NonSpaceHasWord(k, 0);
      }
    } else {
      CatalogueHasAffixWords();
      DrawnFromInstances(keywords, MockTemplates, seed);
    }
  }
}

=== FILE: arith.dfy ===
/**
 * Facts about floor division of naturals that the volume estimates rely on.
 */
module Arith {
  lemma MulMonotone(a: int, b: int, d: nat)
    requires a <= b
    ensures a * d <= b * d
  {
  }

  lemma MulCancel(a: int, b: int, d: int)
    requires d > 0 && a * d < b * d
    ensures a < b
  {
  }

  lemma DivMonotone(x: nat, y: nat, d: nat)
    requires x <= y && d > 0
    ensures x / d <= y / d
  {
    assert (x / d) * d <= x;
    assert y < (y / d + 1) * d;
    MulCancel(x / d, y / d + 1, d);
  }

  lemma DivAntitone(x: nat, small: nat, large: nat)
    requires 0 < small <= large
    ensures x / large <= x / small
  {
    var q := x / large;
    MulMonotone(small, large, q);
    assert q * large <= x;
    assert x < (x / small + 1) * small;
    MulCancel(q, x / small + 1, small);
  }

  lemma DivAtMost(x: nat, d: nat)
    requires d > 0
    ensures x / d <= x
  {
    DivAntitone(x, 1, d);
  }
}

=== FILE: dedup.dfy ===
/**
 * `list(set(xs))[:cap]`: deduplication through a Python set followed by a
 * slice. Python gives no order for iterating a set, so the model fixes none:
 * the elements are taken in an arbitrary order.
 */
module Dedup {

  /** No element occurs twice. */
  predicate Distinct<T(==)>(s: seq<T>)
  {
    forall i, j :: 0 <= i < j < |s| ==> s[i] != s[j]
  }

  /** `set(s)`. */
  function Elements<T>(s: seq<T>): set<T>
  {
    set x | x in s
  }

  function Min(a: nat, b: nat): nat
  {
    if a <= b then a else b
  }

  /** A sequence without repetitions has as many distinct elements as entries. */
  lemma {:induction false} DistinctCard<T>(s: seq<T>)
    requires Distinct(s)
    ensures |Elements(s)| == |s|
  {
    if s != [] {
      var n := |s| - 1;
      DistinctCard(s[..n]);
      assert Elements(s) == Elements(s[..n]) + {s[n]};
      assert s[n] !in Elements(s[..n]);
    }
  }

  /** A sequence never has more distinct elements than entries. */
  lemma {:induction false} ElementsCard<T>(s: seq<T>)
    ensures |Elements(s)| <= |s|
  {
    if s != [] {
      var n := |s| - 1;
      ElementsCard(s[..n]);
      assert Elements(s) == Elements(s[..n]) + {s[n]};
    }
  }

  /** No entry of `a` occurs in `b`. */
  predicate Disjoint<T(==)>(a: seq<T>, b: seq<T>)
  {
    forall i, j :: 0 <= i < |a| && 0 <= j < |b| ==> a[i] != b[j]
  }

  /** Two duplicate-free sequences with no common entry concatenate to a duplicate-free one. */
  lemma DistinctConcat<T>(a: seq<T>, b: seq<T>)
    requires Distinct(a) && Distinct(b) && Disjoint(a, b)
    ensures Distinct(a + b)
  {
    forall i, j | 0 <= i < j < |a + b|
      ensures (a + b)[i] != (a + b)[j]
    {
      if j < |a| {
      } else if i < |a| {
        assert (a + b)[j] == b[j - |a|];
      } else {
        assert (a + b)[i] == b[i - |a|] && (a + b)[j] == b[j - |a|];
      }
    }
  }

  /** Appending an element not yet present keeps a sequence duplicate-free. */
  lemma AppendFresh<T>(s: seq<T>, x: T)
    requires Distinct(s) && x !in Elements(s)
    ensures Distinct(s + [x]) && Elements(s + [x]) == Elements(s) + {x}
  {
  }

  /** What `list(set(xs))[:cap]` is known to be, whatever the set's iteration
      order: duplicate-free, drawn from `xs`, as long as the number of distinct
      elements or the cap, whichever is smaller, and holding every element of
      `xs` when the distinct ones fit under the cap. */
  ghost predicate IsCappedDedup<T>(r: seq<T>, xs: seq<T>, cap: nat)
  {
    && Distinct(r)
    && (forall x :: x in r ==> x in xs)
    && |r| == Min(|Elements(xs)|, cap)
    && (|Elements(xs)| <= cap ==> forall x :: x in xs ==> x in r)
  }

  /** `list(set(xs))[:cap]`, taking the set's elements in an arbitrary order. */
  method DedupCap<T(==)>(xs: seq<T>, cap: nat) returns (r: seq<T>)
    ensures IsCappedDedup(r, xs, cap)
  {
    var pool := Elements(xs);
    r := [];
    while |r| < cap && pool != {}
      invariant |r| <= cap
      invariant Distinct(r)
      invariant Elements(r) !! pool
      invariant Elements(r) + pool == Elements(xs)
      decreases |pool|
    {
      var x :| x in pool;
      assert x !in Elements(r);
      AppendFresh(r, x);
      r := r + [x];
      pool := pool - {x};
    }
    DrainedPool(r, pool, xs, cap);
  }

  /** When the loop of `DedupCap` stops, the list it built is a capped deduplication. */
  lemma DrainedPool<T>(r: seq<T>, pool: set<T>, xs: seq<T>, cap: nat)
    requires |r| <= cap && Distinct(r)
    requires Elements(r) !! pool && Elements(r) + pool == Elements(xs)
    requires |r| == cap || pool == {}
    ensures IsCappedDedup(r, xs, cap)
  {
    DistinctCard(r);
    assert |Elements(xs)| == |Elements(r)| + |pool|;
    forall x | x in r
      ensures x in xs
    {
      assert x in Elements(r);
    }
    if |Elements(xs)| <= cap {
      assert pool == {};
      forall x | x in xs
        ensures x in r
      {
        assert x in Elements(xs);
      }
    }
  }
}

=== FILE: expansion.dfy ===
/**
 * What both keyword expanders share: the outcome of talking to the local
 * generation backend, and the phrase templates of the fallback generator.
 */
module Expansion {
  import opened Text
  import opened Dedup

  /** How the calls to the generation backend went. `ProbeFailed`: the liveness
      request raised or answered with a status other than 200.
      `GenerationFailed`: the generation request raised, answered with a status
      other than 200, or its body had no usable `response` text.
      `Generated`: status 200 with reply text `text`. */
  datatype Outcome = ProbeFailed | GenerationFailed | Generated(text: string)

  /** A fallback phrase: `before`, then the seed, then `after`. */
  datatype Template = Template(before: string, after: string) {
    function Instance(seed: string): string
    {
      before + seed + after
    }
  }

  /** The phrases of `templates` for `seed`, in template order. */
  function Instances(templates: seq<Template>, seed: string): (phrases: seq<string>)
    ensures |phrases| == |templates|
  {
    seq(|templates|, i requires 0 <= i < |templates| => templates[i].Instance(seed))
  }

  /** Every phrase of a template list contains the seed and comes from one of the templates. */
  lemma InstancesContainSeed(templates: seq<Template>, seed: string)
    ensures forall p :: p in Instances(templates, seed) ==>
      Contains(p, seed) && exists t :: t in templates && p == t.Instance(seed)
  {
    forall p | p in Instances(templates, seed)
      ensures Contains(p, seed) && exists t :: t in templates && p == t.Instance(seed)
    {
      var i :| 0 <= i < |templates| && Instances(templates, seed)[i] == p;
      ContainsInfix(templates[i].before, seed, templates[i].after);
    }
  }

  /** Suffix-only templates, `"{seed}" + after` for each suffix, in order. */
  function Suffixes(afters: seq<string>): (templates: seq<Template>)
    ensures |templates| == |afters|
  {
    seq(|afters|, i requires 0 <= i < |afters| => Template("", afters[i]))
  }

  lemma SuffixIn(afters: seq<string>, a: string)
    requires a in afters
    ensures Template("", a) in Suffixes(afters)
  {
    var i :| 0 <= i < |afters| && afters[i] == a;
    assert Suffixes(afters)[i] == Template("", a);
  }

  /** Suffix-only templates with pairwise different suffixes give pairwise
      different phrases for every seed, so a template list holding them yields
      at least that many distinct phrases. */
  lemma SuffixPhrasesCount(templates: seq<Template>, afters: seq<string>, seed: string)
    requires Distinct(afters)
    requires forall a :: a in afters ==> Template("", a) in templates
    ensures |Elements(Instances(templates, seed))| >= |afters|
  {
    var phrases := seq(|afters|, i requires 0 <= i < |afters| => seed + afters[i]);
    SeededDistinct(seed, afters, phrases);
    DistinctCard(phrases);
    var all := Elements(Instances(templates, seed));
    SeededPhrasesIn(templates, afters, seed, phrases);
    assert all == Elements(phrases) + (all - Elements(phrases));
  }

  /** The seed followed by different suffixes gives different phrases. */
  lemma SeededDistinct(seed: string, afters: seq<string>, phrases: seq<string>)
    requires Distinct(afters)
    requires |phrases| == |afters| && forall i :: 0 <= i < |afters| ==> phrases[i] == seed + afters[i]
    ensures Distinct(phrases)
  {
    forall i, j | 0 <= i < j < |phrases|
      ensures phrases[i] != phrases[j]
    {
      assert phrases[i][|seed|..] == afters[i];
      assert phrases[j][|seed|..] == afters[j];
    }
  }

  lemma SeededPhrasesIn(templates: seq<Template>, afters: seq<string>, seed: string, phrases: seq<string>)
    requires forall a :: a in afters ==> Template("", a) in templates
    requires |phrases| == |afters| && forall i :: 0 <= i < |afters| ==> phrases[i] == seed + afters[i]
    ensures Elements(phrases) <= Elements(Instances(templates, seed))
  {
    forall p | p in Elements(phrases)
      ensures p in Elements(Instances(templates, seed))
    {
      var i :| 0 <= i < |phrases| && phrases[i] == p;
      var k :| 0 <= k < |templates| && templates[k] == Template("", afters[i]);
      assert Instances(templates, seed)[k] == p;
    }
  }

  /** A lower-case ASCII letter or a digit: the characters the catalogues' words begin with. */
  predicate IsWordStart(c: char)
  {
    'a' <= c <= 'z' || '0' <= c <= '9'
  }

  /** The text a template adds around the seed is at least three characters
      long and has a word at a fixed place: at the first character of the
      prefix, or right after the leading space of the suffix. */
  predicate HasAffixWord(t: Template)
  {
    && |t.before| + |t.after| >= 3
    && ((|t.before| > 0 && IsWordStart(t.before[0])) || (|t.after| > 1 && IsWordStart(t.after[1])))
  }

  /** Every template of a list has a word around the seed. */
  predicate AllHaveAffixWords(templates: seq<Template>)
  {
    forall i :: 0 <= i < |templates| ==> HasAffixWord(templates[i])
  }

  /** Such a template gives a phrase longer than two characters with at least
      one word, whatever the seed, the empty seed included. */
  lemma InstanceHasWord(t: Template, seed: string)
    requires HasAffixWord(t)
    ensures |t.Instance(seed)| > 2
    ensures WordCount(t.Instance(seed)) >= 1
  {
    var s := t.Instance(seed);
    if |t.before| > 0 && IsWordStart(t.before[0]) {
      assert s[0] == t.before[0];
      NonSpaceHasWord(s, 0);
    } else {
      var i := |t.before| + |seed| + 1;
      assert s[i] == t.after[1];
      NonSpaceHasWord(s, i);
    }
  }

  lemma InstancesHaveWords(templates: seq<Template>, seed: string)
    requires AllHaveAffixWords(templates)
    ensures forall p :: p in Instances(templates, seed) ==> |p| > 2 && WordCount(p) >= 1
  {
    forall p | p in Instances(templates, seed)
      ensures |p| > 2 && WordCount(p) >= 1
    {
      var i :| 0 <= i < |templates| && Instances(templates, seed)[i] == p;
      InstanceHasWord(templates[i], seed);
    }
  }

  /** A list drawn from the phrases of templates that all add a word: each of
      its entries contains the seed, is longer than two characters, has a word
      and is the instance of one of the templates. */
  lemma DrawnFromInstances(keywords: seq<string>, templates: seq<Template>, seed: string)
    requires forall k :: k in keywords ==> k in Instances(templates, seed)
    requires AllHaveAffixWords(templates)
    ensures forall k :: k in keywords ==>
      Contains(k, seed) && |k| > 2 && WordCount(k) >= 1
      && exists t :: t in templates && k == t.Instance(seed)
  {
    InstancesContainSeed(templates, seed);
    InstancesHaveWords(templates, seed);
  }

  /** Suffix-only templates whose suffixes are at least three characters long
      and have a word right after the leading space. */
  lemma SuffixesHaveWords(afters: seq<string>)
    requires forall i :: 0 <= i < |afters| ==> |afters[i]| > 2 && IsWordStart(afters[i][1])
    ensures AllHaveAffixWords(Suffixes(afters))
  {
  }

  lemma AllHaveAffixWordsConcat(a: seq<Template>, b: seq<Template>)
    requires AllHaveAffixWords(a) && AllHaveAffixWords(b)
    ensures AllHaveAffixWords(a + b)
  {
    forall i | 0 <= i < |a + b|
      ensures HasAffixWord((a + b)[i])
    {
      if i >= |a| {
        assert (a + b)[i] == b[i - |a|];
      }
    }
  }
}

=== FILE: pipeline.dfy ===
/**
 * The bodies of the `/generate-keywords` and `/batch-keywords` handlers in
 * backend/app.py: expand the seed, analyze every variation, rank by
 * opportunity and keep the best.
 */
module Pipeline {
  import opened Wrappers
  import opened Text
  import opened Dedup
  import opened Scoring
  import opened Ranking
  import opened Expansion
  import opened SeRanking
  import ResponseParse
  import AppExpander

  /** The seed used when a request names none. */
  const DefaultSeed: string := "digital marketing"

  /** How many ranked keywords a single request returns. */
  const RankCap: nat := 50

  /** How many seeds a batch processes, and how many keywords it keeps per seed. */
  const BatchSeedCap: nat := 10
  const BatchRankCap: nat := 10

  /** The outside world of the analyzer for one keyword, with its random draw
      reduced into the keyword's band. A draw already in the band is kept. */
  function Fitted(keyword: string, e: KeywordEnv): (f: KeywordEnv)
    ensures DrawFits(keyword, f)
    ensures DrawFits(keyword, e) ==> f == e
  {
    e.(draw := BandDraw(e.draw, WordCount(keyword)))
  }

  /** The fitted outside world of every keyword of an expansion, where
      `env(i, k)` is the outside world of the keyword `k` at position `i`. */
  function FittedEnvs(keywords: seq<string>, env: (nat, string) -> KeywordEnv): (envs: seq<KeywordEnv>)
    ensures |envs| == |keywords|
    ensures forall i :: 0 <= i < |keywords| ==> DrawFits(keywords[i], envs[i])
  {
    FittedEnvsFit(keywords, env);
    seq(|keywords|, i requires 0 <= i < |keywords| => Fitted(keywords[i], env(i, keywords[i])))
  }

  lemma FittedEnvsFit(keywords: seq<string>, env: (nat, string) -> KeywordEnv)
    ensures var envs := seq(|keywords|, i requires 0 <= i < |keywords| => Fitted(keywords[i], env(i, keywords[i])));
      forall i :: 0 <= i < |keywords| ==> DrawFits(keywords[i], envs[i])
  {
    var envs := seq(|keywords|, i requires 0 <= i < |keywords| => Fitted(keywords[i], env(i, keywords[i])));
    forall i | 0 <= i < |keywords|
      ensures DrawFits(keywords[i], envs[i])
    {
      var e := Fitted(keywords[i], env(i, keywords[i]));
      assert envs[i] == e;
    }
  }

  /** The records `analyze` produces for an expansion. */
  function Analyzed(keywords: seq<string>, env: (nat, string) -> KeywordEnv): (records: seq<ScoredKeyword>)
    ensures |records| == |keywords|
    ensures forall i :: 0 <= i < |keywords| ==> records[i].keyword == keywords[i]
  {
    var envs := FittedEnvs(keywords, env);
    seq(|keywords|, i requires 0 <= i < |keywords| => AnalyzeOne(keywords[i], envs[i]))
  }

  /** Analyze an expansion and keep the best `cap` records by opportunity. */
  method AnalyzeAndRank(keywords: seq<string>, env: (nat, string) -> KeywordEnv, cap: nat)
    returns (ranked: seq<ScoredKeyword>)
    ensures ranked == Top(Analyzed(keywords, env), cap)
    ensures |ranked| == Min(|keywords|, cap) && SortedByScore(ranked)
    ensures forall r :: r in ranked ==> r.keyword in keywords
  {
    var envs := FittedEnvs(keywords, env);
    var records := SeRanking.Analyze(keywords, envs);
    assert records == Analyzed(keywords, env);
    ranked := Top(records, cap);
    forall r | r in ranked
      ensures r.keyword in keywords
    {
      var k :| 0 <= k < |records| && records[k] == r;
    }
  }

  datatype Response = Response(seed: string, keywords: seq<ScoredKeyword>, totalGenerated: nat)
  datatype Reply = BadRequest | Ok(response: Response)

  /** `/generate-keywords` after decoding the request: the seed defaults to
      "digital marketing" and is stripped; a blank seed is refused. Returns the
      expansion alongside the reply. */
  method GenerateKeywords(requested: Option<string>, outcome: Outcome, env: (nat, string) -> KeywordEnv)
    returns (reply: Reply, expanded: seq<string>)
    ensures reply.BadRequest? <==> Strip(requested.GetOr(DefaultSeed)) == []
    ensures reply.BadRequest? ==> expanded == []
    ensures reply.Ok? ==> reply.response.seed == Strip(requested.GetOr(DefaultSeed))
    ensures reply.Ok? ==> reply.response.totalGenerated == |expanded| <= AppExpander.ReplyCap
    ensures reply.Ok? ==> reply.response.keywords == Top(Analyzed(expanded, env), RankCap)
    ensures reply.Ok? ==> |reply.response.keywords| == |expanded| && SortedByScore(reply.response.keywords)
    ensures reply.Ok? ==> AppExpander.IsExpansion(expanded, reply.response.seed, outcome)
    ensures reply.Ok? && outcome.Generated? ==>
      IsCappedDedup(expanded, ResponseParse.Fragments(ResponseParse.Clean(outcome.text)), AppExpander.ReplyCap)
      && forall k :: k in expanded ==> ResponseParse.WellFormedKeyword(k)
    ensures reply.Ok? && !outcome.Generated? ==>
      AppExpander.IsMockOutput(expanded, reply.response.seed) && reply.response.totalGenerated == 50
  {
    var seed := Strip(requested.GetOr(DefaultSeed));
    if seed == [] {
      return BadRequest, [];
    }
    expanded := AppExpander.Expand(seed, outcome);
    var ranked := AnalyzeAndRank(expanded, env, RankCap);
    reply := Ok(Response(seed, ranked, |expanded|));
  }

  /** One entry of a batch reply. */
  datatype BatchResult = BatchResult(seed: string, top: seq<ScoredKeyword>, totalGenerated: nat)
  datatype BatchReply = BatchRejected | BatchOk(results: seq<BatchResult>, totalProcessed: nat)

  /** The entry for `seed` built from the expansion `expanded`: the expansion
      analyzed, ranked and cut to its best ten, with its size. */
  ghost predicate EntryOf(result: BatchResult, seed: string, expanded: seq<string>,
                          env: (nat, string) -> KeywordEnv)
  {
    result == BatchResult(seed, Top(Analyzed(expanded, env), BatchRankCap), |expanded|)
  }

  /** A processed seed: the expansion is one the expander may return and the
      entry is built from it. */
  ghost predicate Processed(result: BatchResult, expanded: seq<string>, seed: string,
                            outcome: Outcome, env: (nat, string) -> KeywordEnv)
  {
    AppExpander.IsExpansion(expanded, seed, outcome) && EntryOf(result, seed, expanded, env)
  }

  /** Every batch entry names its seed, counts at most 50 generated keywords
      and holds the best ten of them, or all of them when fewer, best first.
      When the backend failed, exactly 50 were generated and every entry
      keyword contains the seed. */
  lemma BatchResultShape(result: BatchResult, expanded: seq<string>, seed: string, outcome: Outcome,
                         env: (nat, string) -> KeywordEnv)
    requires Processed(result, expanded, seed, outcome, env)
    ensures result.seed == seed && result.totalGenerated <= AppExpander.ReplyCap
    ensures |result.top| == Min(result.totalGenerated, BatchRankCap) && SortedByScore(result.top)
    ensures !outcome.Generated? ==>
      result.totalGenerated == 50 && forall r :: r in result.top ==> Contains(r.keyword, seed)
  {
    EntryShape(result, seed, expanded, env);
    if !outcome.Generated? {
      AppExpander.MockOutputShape(expanded, seed);
      EntryKeywordsFrom(result, seed, expanded, env);
    }
  }

  lemma EntryShape(result: BatchResult, seed: string, expanded: seq<string>,
                   env: (nat, string) -> KeywordEnv)
    requires EntryOf(result, seed, expanded, env)
    ensures result.seed == seed && result.totalGenerated == |expanded|
    ensures |result.top| == Min(|expanded|, BatchRankCap) && SortedByScore(result.top)
  {
  }

  /** Every keyword of an entry comes from the expansion it was built from. */
  lemma EntryKeywordsFrom(result: BatchResult, seed: string, expanded: seq<string>,
                          env: (nat, string) -> KeywordEnv)
    requires EntryOf(result, seed, expanded, env)
    ensures forall r :: r in result.top ==> r.keyword in expanded
  {
    var records := Analyzed(expanded, env);
    forall r | r in result.top
      ensures r.keyword in expanded
    {
      var i :| 0 <= i < |records| && records[i] == r;
      assert r.keyword == expanded[i];
    }
  }

  /** The body of the batch loop for one seed; returns the expansion alongside the entry. */
  method BatchEntry(seed: string, outcome: Outcome, env: (nat, string) -> KeywordEnv)
    returns (result: BatchResult, expanded: seq<string>)
    ensures Processed(result, expanded, seed, outcome, env)
  {
    expanded := AppExpander.Expand(seed, outcome);
    var top := AnalyzeAndRank(expanded, env, BatchRankCap);
    result := BatchResult(seed, top, |expanded|);
  }

  /** `ok(t, rs[t], es[t])` holds at every position of two lists of equal length. */
  ghost predicate AllOk<R, E>(rs: seq<R>, es: seq<E>, ok: (nat, R, E) -> bool)
    requires |rs| == |es|
    decreases |rs|
  {
    var n := |rs|;
    n == 0 || (AllOk(rs[..n - 1], es[..n - 1], ok) && ok(n - 1, rs[n - 1], es[n - 1]))
  }

  lemma AllOkSnoc<R, E>(rs: seq<R>, es: seq<E>, r: R, e: E, ok: (nat, R, E) -> bool)
    requires |rs| == |es| && AllOk(rs, es, ok) && ok(|rs|, r, e)
    ensures AllOk(rs + [r], es + [e], ok)
  {
    assert (rs + [r])[..|rs|] == rs && (es + [e])[..|es|] == es;
  }

  lemma {:induction false} AllOkAt<R, E>(rs: seq<R>, es: seq<E>, ok: (nat, R, E) -> bool)
    requires |rs| == |es| && AllOk(rs, es, ok)
    ensures forall t :: 0 <= t < |rs| ==> ok(t, rs[t], es[t])
    decreases |rs|
  {
    var n := |rs|;
    if n > 0 {
      AllOkAt(rs[..n - 1], es[..n - 1], ok);
      forall t | 0 <= t < n ensures ok(t, rs[t], es[t]) {
        if t < n - 1 {
          assert rs[..n - 1][t] == rs[t] && es[..n - 1][t] == es[t];
        }
      }
    }
  }

  /** `/batch-keywords` after decoding the request: an empty list is refused;
      otherwise the first ten seeds, in request order, each expanded, analyzed
      and cut to its best ten. Seeds are used as given, without stripping.
      Returns the expansion of each processed seed alongside the reply. */
  method BatchKeywords(seeds: seq<string>, outcome: nat -> Outcome, env: nat -> ((nat, string) -> KeywordEnv))
    returns (reply: BatchReply, expansions: seq<seq<string>>)
    ensures reply.BatchRejected? <==> seeds == []
    ensures reply.BatchRejected? ==> expansions == []
    ensures reply.BatchOk? ==>
      |reply.results| == reply.totalProcessed == |expansions| == Min(|seeds|, BatchSeedCap)
    ensures reply.BatchOk? ==> forall t :: 0 <= t < |expansions| ==>
      Processed(reply.results[t], expansions[t], seeds[t], outcome(t), env(t))
  {
    if seeds == [] {
      return BatchRejected, [];
    }
    var results: seq<BatchResult> := [];
    expansions := [];
    // `ok(t, r, e)`: the entry `r` and expansion `e` processed seed `t`.
    ghost var ok := (t: nat, r: BatchResult, e: seq<string>) =>
      t < |seeds| && Processed(r, e, seeds[t], outcome(t), env(t));
    for s := 0 to Min(|seeds|, BatchSeedCap)
      invariant |results| == |expansions| == s
      invariant AllOk(results, expansions, ok)
    {
      var result, expanded := BatchEntry(seeds[s], outcome(s), env(s));
      AllOkSnoc(results, expansions, result, expanded, ok);
      results := results + [result];
      expansions := expansions + [expanded];
    }
    AllOkAt(results, expansions, ok);
    reply := BatchOk(results, |results|);
  }
}

=== FILE: ranking.dfy ===
/**
 * `sorted(records, key=lambda x: x['opportunity_score'], reverse=True)[:cap]`:
 * a stable sort by descending score followed by truncation.
 */
module Ranking {
  import opened Dedup
  import opened Scoring

  /** Scores never increase along the sequence. */
  predicate SortedByScore(rs: seq<ScoredKeyword>)
  {
    forall i, j :: 0 <= i < j < |rs| ==> rs[i].score >= rs[j].score
  }

  /** Places `x` in front of the first record that does not score higher. */
  function InsertByScore(x: ScoredKeyword, rs: seq<ScoredKeyword>): (r: seq<ScoredKeyword>)
    ensures |r| == |rs| + 1
    ensures multiset(r) == multiset(rs) + multiset{x}
  {
    if rs == [] || rs[0].score <= x.score then [x] + rs
    else
      assert rs == [rs[0]] + rs[1..];
      [rs[0]] + InsertByScore(x, rs[1..])
  }

  /** Every record of the insertion is `x` or comes from `rs`. */
  lemma InsertedFrom(x: ScoredKeyword, rs: seq<ScoredKeyword>, k: nat)
    requires k < |rs| + 1
    ensures InsertByScore(x, rs)[k] == x || InsertByScore(x, rs)[k] in rs
  {
    var r := InsertByScore(x, rs);
    assert r[k] in multiset(r);
  }

  /** Inserting into an ordered sequence keeps it ordered. */
  lemma {:induction false} InsertSorted(x: ScoredKeyword, rs: seq<ScoredKeyword>)
    requires SortedByScore(rs)
    ensures SortedByScore(InsertByScore(x, rs))
  {
    if rs == [] || rs[0].score <= x.score {
    } else {
      var tail := InsertByScore(x, rs[1..]);
      InsertSorted(x, rs[1..]);
      forall k | 0 <= k < |tail|
        ensures rs[0].score >= tail[k].score
      {
        InsertedFrom(x, rs[1..], k);
      }
      assert InsertByScore(x, rs) == [rs[0]] + tail;
    }
  }

  /** Insertion sort by descending score: the result is ordered and a permutation of the input. */
  function SortByScore(rs: seq<ScoredKeyword>): (sorted: seq<ScoredKeyword>)
    ensures |sorted| == |rs|
    ensures SortedByScore(sorted)
    ensures multiset(sorted) == multiset(rs)
  {
    if rs == [] then []
    else
      assert rs == [rs[0]] + rs[1..];
      InsertSorted(rs[0], SortByScore(rs[1..]));
      InsertByScore(rs[0], SortByScore(rs[1..]))
  }

  /** The records scoring exactly `v`, in order. */
  function WithScore(rs: seq<ScoredKeyword>, v: real): seq<ScoredKeyword>
  {
    if rs == [] then []
    else (if rs[0].score == v then [rs[0]] else []) + WithScore(rs[1..], v)
  }

  lemma WithScoreCons(y: ScoredKeyword, rs: seq<ScoredKeyword>, v: real)
    ensures WithScore([y] + rs, v) == (if y.score == v then [y] else []) + WithScore(rs, v)
  {
    assert ([y] + rs)[0] == y;
    assert ([y] + rs)[1..] == rs;
  }

  lemma {:induction false} InsertKeepsTies(x: ScoredKeyword, rs: seq<ScoredKeyword>, v: real)
    ensures WithScore(InsertByScore(x, rs), v)
         == (if x.score == v then [x] else []) + WithScore(rs, v)
  {
    if rs == [] || rs[0].score <= x.score {
      WithScoreCons(x, rs, v);
    } else {
      var tail := InsertByScore(x, rs[1..]);
      assert InsertByScore(x, rs) == [rs[0]] + tail;
      InsertKeepsTies(x, rs[1..], v);
      WithScoreCons(rs[0], tail, v);
      WithScoreCons(rs[0], rs[1..], v);
      assert rs == [rs[0]] + rs[1..];
      // `rs[0]` scores higher than `x`, so at most one of them scores `v`.
      if x.score == v {
        assert WithScore(rs, v) == WithScore(rs[1..], v);
      } else {
        assert WithScore(InsertByScore(x, rs), v) == WithScore([rs[0]] + rs[1..], v);
      }
    }
  }

  /** Stability: records with equal scores keep their relative input order. */
  lemma {:induction false} SortIsStable(rs: seq<ScoredKeyword>, v: real)
    ensures WithScore(SortByScore(rs), v) == WithScore(rs, v)
  {
    if rs != [] {
      SortIsStable(rs[1..], v);
      InsertKeepsTies(rs[0], SortByScore(rs[1..]), v);
    }
  }

  /** A record of the sorted sequence comes from the input, and the converse. */
  lemma SortedMember(rs: seq<ScoredKeyword>, r: ScoredKeyword)
    ensures r in SortByScore(rs) <==> r in rs
  {
    assert r in SortByScore(rs) <==> r in multiset(SortByScore(rs));
    assert r in rs <==> r in multiset(rs);
  }

  /** In a descending sequence, a record outside a prefix scores no higher than one inside it. */
  lemma PrefixDominates(sorted: seq<ScoredKeyword>, n: nat, r: ScoredKeyword, t: ScoredKeyword)
    requires SortedByScore(sorted) && n <= |sorted|
    requires r in sorted && r !in sorted[..n] && t in sorted[..n]
    ensures t.score >= r.score
  {
    assert sorted == sorted[..n] + sorted[n..];
    assert r in sorted[n..];
    var k :| 0 <= k < |sorted| - n && sorted[n..][k] == r;
    var j :| 0 <= j < n && sorted[..n][j] == t;
    assert sorted[j] == t && sorted[n + k] == r;
  }

  /** The ranked list `sorted(...)[:cap]`: the best `min(n, cap)` records in
      descending order, each taken from the input; anything left out scores no
      higher than anything kept. */
  function Top(rs: seq<ScoredKeyword>, cap: nat): (top: seq<ScoredKeyword>)
    ensures |top| == Min(|rs|, cap)
    ensures SortedByScore(top)
    ensures top == SortByScore(rs)[..|top|]
    ensures forall r :: r in top ==> r in rs
    ensures forall r, t :: r in rs && r !in top && t in top ==> t.score >= r.score
  {
    var sorted := SortByScore(rs);
    var n := Min(|rs|, cap);
    forall r | r in sorted[..n]
      ensures r in rs
    {
      SortedMember(rs, r);
    }
    forall r, t | r in rs && r !in sorted[..n] && t in sorted[..n]
      ensures t.score >= r.score
    {
      SortedMember(rs, r);
      PrefixDominates(sorted, n, r, t);
    }
    sorted[..n]
  }
}

=== FILE: real_seo.dfy ===
/**
 * The SerpAPI-based analyzer (`RealSEOAnalyzer` in
 * backend/real_seo_analyzer.py): volume from the trends endpoint,
 * competition from how many big domains rank in the organic results, the
 * two-factor score, and a word-count estimate when the trends call fails.
 */
module RealSeo {
  import opened Wrappers
  import opened Text
  import opened ResponseParse
  import opened Scoring
  import opened Remote
  import opened Arith
  import opened Expansion
  import AppExpander
  import StandaloneExpander

  datatype Estimate = Estimate(volume: int, competition: int)

  /** `_estimate_data`. Absent for a keyword without words, where the floor
      division by the word count raises `ZeroDivisionError`. */
  function EstimateData(keyword: string): (e: Option<Estimate>)
    ensures e.None? <==> WordCount(keyword) == 0
    ensures e.Some? ==> 10 <= e.value.volume <= 1000
    ensures e.Some? ==> e.value.competition in {70, 45, 20}
    ensures e.Some? && WordCount(keyword) <= 2 ==> e.value.competition == 70
    ensures e.Some? && WordCount(keyword) == 3 ==> e.value.competition == 45
    ensures e.Some? && WordCount(keyword) >= 4 ==> e.value.competition == 20
  {
    var wc := WordCount(keyword);
    if wc == 0 then None
    else
      var base := if wc <= 2 then 1000 else if wc == 3 then 500 else 100;
      var volume := if base / wc >= 10 then base / wc else 10;
      Some(Estimate(volume, if wc <= 2 then 70 else if wc == 3 then 45 else 20))
  }

  /** More words never raise the estimated volume or competition. */
  lemma EstimateNonIncreasing(shorter: string, longer: string)
    requires 1 <= WordCount(shorter) <= WordCount(longer)
    ensures EstimateData(longer).value.volume <= EstimateData(shorter).value.volume
    ensures EstimateData(longer).value.competition <= EstimateData(shorter).value.competition
  {
    var a, b := WordCount(shorter), WordCount(longer);
    var baseA := if a <= 2 then 1000 else if a == 3 then 500 else 100;
    var baseB := if b <= 2 then 1000 else if b == 3 then 500 else 100;
    assert baseB <= baseA;
    assert baseB / b <= baseA / b by {
      DivMonotone(baseB, baseA, b);
    }
    assert baseA / b <= baseA / a by {
      DivAntitone(baseA, a, b);
    }
  }

  /** A parsed keyword always has a word, so the estimate exists. */
  lemma ParsedKeywordEstimate(keyword: string)
    requires WellFormedKeyword(keyword)
    ensures EstimateData(keyword).Some?
  {
    NonSpaceHasWord(keyword, 0);
  }

  /** Every keyword either expander returns, parsed or from the fallback
      catalogue, has a word: the estimate exists for it and the analysis of it
      never raises. */
  lemma ExpandedKeywordsEstimate(keywords: seq<string>, seed: string, outcome: Outcome)
    requires AppExpander.IsExpansion(keywords, seed, outcome)
          || StandaloneExpander.IsExpansion(keywords, seed, outcome)
    ensures forall k :: k in keywords ==> EstimateData(k).Some?
    ensures forall k, env :: k in keywords ==> AnalyzeOne(k, env).Some?
  {
    if AppExpander.IsExpansion(keywords, seed, outcome) {
      AppExpander.ExpansionHasWords(keywords, seed, outcome);
    } else {
      StandaloneExpander.ExpansionHasWords(keywords, seed, outcome);
    }
    forall k, env | k in keywords
      ensures AnalyzeOne(k, env).Some?
    {
      AnalyzeOneSource(k, env);
    }
  }

  const BigDomains: seq<string> := ["wikipedia.org", "youtube.com", "amazon.com", "forbes.com"]

  /** How many result links mention a big domain. */
  function BigDomainCount(links: seq<string>): (n: nat)
    ensures n <= |links|
  {
    if links == [] then 0
    else BigDomainCount(links[..|links| - 1]) + (if ContainsAny(links[|links| - 1], BigDomains) then 1 else 0)
  }

  /** Competition from the count of big-domain results: 10 plus 15 per result, capped at 95. */
  function CompetitionFromCount(count: nat): (competition: int)
    ensures 10 <= competition <= 95
    ensures competition == 95 <==> count >= 6
  {
    if 15 * count + 10 <= 95 then 15 * count + 10 else 95
  }

  lemma CompetitionMonotone(a: nat, b: nat)
    requires a <= b
    ensures CompetitionFromCount(a) <= CompetitionFromCount(b)
  {
  }

  /** What the organic-search call yields: the `link` of each organic result
      ("" where a result has none), or a failure of any kind. */
  datatype SearchReply = SearchFailed | OrganicResults(links: seq<string>)

  /** `_analyze_competition`: 50 unless the search succeeded. */
  function AnalyzeCompetition(reply: SearchReply): (competition: int)
    ensures 10 <= competition <= 95
    ensures reply.SearchFailed? ==> competition == 50
    ensures reply.OrganicResults? && |reply.links| == 0 ==> competition == 10
  {
    match reply
    case SearchFailed => 50
    case OrganicResults(links) => CompetitionFromCount(BigDomainCount(links))
  }

  /** One more big-domain result never lowers the competition. */
  lemma {:induction false} MoreBigDomainsMoreCompetition(links: seq<string>, link: string)
    ensures BigDomainCount(links + [link]) >= BigDomainCount(links)
    ensures AnalyzeCompetition(OrganicResults(links + [link])) >= AnalyzeCompetition(OrganicResults(links))
  {
    assert (links + [link])[..|links|] == links;
    CompetitionMonotone(BigDomainCount(links), BigDomainCount(links + [link]));
  }

  /** `data.get('interest_over_time', {}).get('averages', {}).get('value', 100)`;
      absent when one of the values is not an object, which raises. */
  function TrendsVolume(data: Json): (v: Option<Json>)
    ensures !data.JObject? ==> v.None?
    ensures data.JObject? && "interest_over_time" !in data.fields ==> v == Some(JNum(100.0))
    ensures data.JObject? && "interest_over_time" in data.fields ==>
      var over := data.fields["interest_over_time"];
      (!over.JObject? ==> v.None?)
      && (over.JObject? && "averages" !in over.fields ==> v == Some(JNum(100.0)))
      && (over.JObject? && "averages" in over.fields ==>
            var averages := over.fields["averages"];
            (!averages.JObject? ==> v.None?)
            && (averages.JObject? && "value" !in averages.fields ==> v == Some(JNum(100.0)))
            && (averages.JObject? && "value" in averages.fields ==> v == Some(averages.fields["value"])))
  {
    match Get(data, "interest_over_time", JObject(map[]))
    case None => None
    case Some(over) =>
      match Get(over, "averages", JObject(map[]))
      case None => None
      case Some(averages) => Get(averages, "value", JNum(100.0))
  }

  /** What `_get_serpapi_data` returns: the trends volume and the search
      competition, or the estimate when the trends call fails (absent when the
      estimate raises). */
  datatype Fetched = Live(volume: Json, competition: int) | Fallback(e: Estimate)

  function SerpApiData(keyword: string, trends: HttpReply, search: SearchReply): (f: Option<Fetched>)
    ensures f.None? <==>
              !(DecodedOk(trends) && TrendsVolume(trends.body.value).Some?) && WordCount(keyword) == 0
    ensures f.Some? ==> (f.value.Live? <==> DecodedOk(trends) && TrendsVolume(trends.body.value).Some?)
    ensures f.Some? && f.value.Live? ==>
              f.value.volume == TrendsVolume(trends.body.value).value
              && 10 <= f.value.competition <= 95
              && (search.SearchFailed? ==> f.value.competition == 50)
    ensures f.Some? && f.value.Fallback? ==>
              Some(f.value.e) == EstimateData(keyword)
              && 10 <= f.value.e.volume <= 1000 && f.value.e.competition in {20, 45, 70}
  {
    if DecodedOk(trends) && TrendsVolume(trends.body.value).Some? then
      Some(Live(TrendsVolume(trends.body.value).value, AnalyzeCompetition(search)))
    else
      match EstimateData(keyword)
      case None => None
      case Some(e) => Some(Fallback(e))
  }

  /** Everything the analyzer learns from outside for one keyword. */
  datatype KeywordEnv = KeywordEnv(trends: HttpReply, search: SearchReply)

  function Record(keyword: string, volume: real, competition: real, source: Provenance): (r: ScoredKeyword)
  {
    ScoredKeyword(keyword, volume, competition, None, OpportunityScore2(volume, competition),
                  DifficultyLabel(competition), Some(source))
  }

  /** One iteration of `analyze`: "SerpAPI" whenever `_get_serpapi_data`
      returns, even with its own estimate; "Estimated" when the volume it
      returns is not a number. Absent when the estimate raises. */
  function AnalyzeOne(keyword: string, env: KeywordEnv): (r: Option<ScoredKeyword>)
    ensures r.None? ==> WordCount(keyword) == 0
    ensures r.Some? ==> r.value.keyword == keyword && r.value.cpc.None?
    ensures r.Some? ==> r.value.score == OpportunityScore2(r.value.volume, r.value.competition)
    ensures r.Some? ==> r.value.difficulty == DifficultyLabel(r.value.competition)
    ensures r.Some? ==> 10.0 <= r.value.competition <= 95.0
    ensures r.Some? && r.value.source == Some(Estimated) ==> 0.0 <= r.value.score <= 100.0
    ensures DecodedOk(env.trends) && TrendsVolume(env.trends.body.value).Some?
            && TrendsVolume(env.trends.body.value).value.JNum? ==>
              r.Some? && r.value.volume == TrendsVolume(env.trends.body.value).value.n
              && r.value.competition == AnalyzeCompetition(env.search) as real
              && r.value.source == Some(SerpApi)
    ensures !(DecodedOk(env.trends) && TrendsVolume(env.trends.body.value).Some?)
            && EstimateData(keyword).Some? ==>
              r.Some? && r.value.volume == EstimateData(keyword).value.volume as real
              && r.value.competition == EstimateData(keyword).value.competition as real
              && r.value.source == Some(SerpApi)
  {
    match SerpApiData(keyword, env.trends, env.search)
    case None => None
    case Some(Live(JNum(volume), competition)) => Some(Record(keyword, volume, competition as real, SerpApi))
    case Some(Fallback(e)) => Some(Record(keyword, e.volume as real, e.competition as real, SerpApi))
    case Some(Live(_, _)) =>
      match EstimateData(keyword)
      case None => None
      case Some(e) => Some(Record(keyword, e.volume as real, e.competition as real, Estimated))
  }

  /** A keyword with words always gets a record, and its label is "SerpAPI"
      exactly when the trends volume is a number or the trends call failed. */
  lemma AnalyzeOneSource(keyword: string, env: KeywordEnv)
    requires WordCount(keyword) >= 1
    ensures AnalyzeOne(keyword, env).Some?
    ensures AnalyzeOne(keyword, env).value.source == Some(Estimated) <==>
              DecodedOk(env.trends) && TrendsVolume(env.trends.body.value).Some?
              && !TrendsVolume(env.trends.body.value).value.JNum?
  {
  }

  /** `analyze`: one record per keyword, in input order; absent when a keyword
      without words reaches the estimate, which raises out of the loop. */
  method Analyze(keywords: seq<string>, envs: seq<KeywordEnv>) returns (records: Option<seq<ScoredKeyword>>)
    requires |envs| == |keywords|
    ensures records.Some? <==> forall i :: 0 <= i < |keywords| ==> AnalyzeOne(keywords[i], envs[i]).Some?
    ensures records.Some? ==> |records.value| == |keywords|
    ensures records.Some? ==> forall i :: 0 <= i < |keywords| ==> records.value[i] == AnalyzeOne(keywords[i], envs[i]).value
  {
    var done: seq<ScoredKeyword> := [];
    for i := 0 to |keywords|
      invariant |done| == i
      invariant forall j :: 0 <= j < i ==> AnalyzeOne(keywords[j], envs[j]).Some?
      invariant forall j :: 0 <= j < i ==> done[j] == AnalyzeOne(keywords[j], envs[j]).value
    {
      var r := AnalyzeOne(keywords[i], envs[i]);
      if r.None? {
        return None;
      }
      done := done + [r.value];
    }
    records := Some(done);
  }
}

=== FILE: remote.dfy ===
/**
 * Replies of the remote services, abstracted. A request either raises
 * (connection error, timeout) or yields a status code and a body; the body is
 * absent when it is not valid JSON, so that `.json()` raises.
 */
module Remote {
  import opened Wrappers

  /** A decoded JSON value, with the distinctions the analyzers make. */
  datatype Json =
    | JNum(n: real)
    | JList(items: seq<Json>)
    | JObject(fields: map<string, Json>)
    | JOther // strings, booleans and null

  datatype HttpReply = Raised | Reply(status: int, body: Option<Json>)

  /** A 200 reply whose body decoded. */
  predicate DecodedOk(reply: HttpReply)
  {
    reply.Reply? && reply.status == 200 && reply.body.Some?
  }

  /** `value.get(key, default)`: absent when `value` is not an object, which raises. */
  function Get(value: Json, key: string, default: Json): (r: Option<Json>)
    ensures r.Some? <==> value.JObject?
    ensures value.JObject? && key !in value.fields ==> r == Some(default)
  {
    if !value.JObject? then None
    else if key in value.fields then Some(value.fields[key])
    else Some(default)
  }
}

=== FILE: response_parse.dfy ===
/**
 * Turning the generation backend's raw reply into keyword candidates: strip the
 * reply, delete list numbering `^\d+\.\s*` at the start of every line, delete
 * quote characters, split on newlines and then on commas, strip every
 * fragment, keep those longer than two characters, then deduplicate and cap.
 */
module ResponseParse {
  import opened Text
  import opened Dedup

  predicate IsDigit(c: char)
  {
    '0' <= c <= '9'
  }

  /** Length of the run of digits that `s` starts with. */
  function DigitRun(s: string): (n: nat)
    ensures n <= |s|
    ensures forall i :: 0 <= i < n ==> IsDigit(s[i])
    ensures n < |s| ==> !IsDigit(s[n])
  {
    if |s| > 0 && IsDigit(s[0]) then 1 + DigitRun(s[1..]) else 0
  }

  /** Length of the run of whitespace that `s` starts with. */
  function SpaceRun(s: string): (n: nat)
    ensures n <= |s|
    ensures forall i :: 0 <= i < n ==> IsSpace(s[i])
    ensures n < |s| ==> !IsSpace(s[n])
  {
    if |s| > 0 && IsSpace(s[0]) then 1 + SpaceRun(s[1..]) else 0
  }

  /** Length of the match of `\d+\.\s*` at the start of `s`, or 0 when the
      pattern does not match there: one or more digits, a full stop, then all
      the whitespace that follows (the greedy `\s*` also swallows newlines). */
  function NumberingLength(s: string): (n: nat)
    ensures n <= |s|
    ensures n > 0 ==> n >= 2 && '.' in s
    ensures n > 0 ==>
      var d := DigitRun(s);
      0 < d < n && (forall i :: 0 <= i < d ==> IsDigit(s[i])) && s[d] == '.'
      && (forall i :: d < i < n ==> IsSpace(s[i])) && (n == |s| || !IsSpace(s[n]))
  {
    var d := DigitRun(s);
    if 0 < d < |s| && s[d] == '.' then
      d + 1 + SpaceRun(s[d + 1..])
    else 0
  }

  /** The numbering pattern matches at the start of `s` exactly when some
      non-empty prefix of digits is followed by a full stop. */
  lemma NumberingMatches(s: string)
    ensures NumberingLength(s) > 0 <==>
      exists k :: 0 < k < |s| && s[k] == '.' && forall i :: 0 <= i < k ==> IsDigit(s[i])
  {
    if k :| 0 < k < |s| && s[k] == '.' && forall i :: 0 <= i < k ==> IsDigit(s[i]) {
      DigitRunIs(s, k);
    }
  }

  /** A run of `k` digits followed by a non-digit, or by the end, is the digit run. */
  lemma {:induction false} DigitRunIs(s: string, k: nat)
    requires k <= |s| && (k == |s| || !IsDigit(s[k]))
    requires forall i :: 0 <= i < k ==> IsDigit(s[i])
    ensures DigitRun(s) == k
    decreases k
  {
    if k > 0 {
      DigitRunIs(s[1..], k - 1);
    }
  }

  /** `re.sub(r'^\d+\.\s*', '', s, flags=re.MULTILINE)`. The scan goes left to
      right; `^` holds at the start of the text and right after a newline, and
      after a removal the scan resumes where the match ended. */
  function StripNumbering(s: string, atLineStart: bool): (r: string)
    ensures |r| <= |s| && CharsOf(r) <= CharsOf(s)
    ensures atLineStart && NumberingLength(s) > 0 ==> |r| <= |s| - NumberingLength(s)
    decreases |s|
  {
    if s == [] then []
    else if atLineStart && NumberingLength(s) > 0 then
      var n := NumberingLength(s);
      assert CharsOf(s[n..]) <= CharsOf(s);
      StripNumbering(s[n..], s[n - 1] == '\n')
    else
      assert CharsOf(s[1..]) <= CharsOf(s);
      [s[0]] + StripNumbering(s[1..], s[0] == '\n')
  }

  /** Text without a full stop holds no list numbering and is left unchanged. */
  lemma {:induction false} NoNumberingUnchanged(s: string, atLineStart: bool)
    requires '.' !in s
    ensures StripNumbering(s, atLineStart) == s
    decreases |s|
  {
    if s != [] {
      assert NumberingLength(s) == 0;
      NoNumberingUnchanged(s[1..], s[0] == '\n');
      assert s == [s[0]] + s[1..];
    }
  }

  /** Numbering is removed only at a line start: `^` does not hold in the middle of a line. */
  lemma {:induction false} NumberingKeptMidLine(s: string)
    requires '\n' !in s
    ensures StripNumbering(s, false) == s
    decreases |s|
  {
    if s != [] {
      NumberingKeptMidLine(s[1..]);
      assert s == [s[0]] + s[1..];
    }
  }

  /** On a single line, the numbering at its start is removed and the rest of
      the line is kept as it is. */
  lemma NumberingRemovedOnLine(s: string)
    requires NumberingLength(s) > 0 && '\n' !in s
    ensures StripNumbering(s, true) == s[NumberingLength(s)..]
  {
    NumberingKeptMidLine(s[NumberingLength(s)..]);
  }

  /** `re.sub(r'["\']', '', s)`: every double and single quote deleted. */
  function RemoveQuotes(s: string): (r: string)
    ensures '"' !in r && '\'' !in r
    ensures CharsOf(r) <= CharsOf(s)
    ensures '"' !in s && '\'' !in s ==> r == s
    ensures forall c :: c != '"' && c != '\'' ==> multiset(r)[c] == multiset(s)[c]
    ensures |r| == |s| - multiset(s)['"'] - multiset(s)['\'']
  {
    if s == [] then []
    else
      assert CharsOf(s[1..]) <= CharsOf(s);
      assert s == [s[0]] + s[1..];
      (if s[0] == '"' || s[0] == '\'' then [] else [s[0]]) + RemoveQuotes(s[1..])
  }

  lemma AppendAssociative<T>(x: seq<T>, y: seq<T>, z: seq<T>)
    ensures x + (y + z) == (x + y) + z
  {
  }

  /** Removing quotes looks at one character at a time. */
  lemma RemoveQuotesCons(c: char, t: string)
    ensures RemoveQuotes([c] + t) == (if c == '"' || c == '\'' then [] else [c]) + RemoveQuotes(t)
  {
    assert ([c] + t)[0] == c && ([c] + t)[1..] == t;
  }

  /** Quotes are deleted in place: removing them from a concatenation removes
      them from each part, so the other characters keep their order. */
  lemma {:induction false} RemoveQuotesConcat(a: string, b: string)
    ensures RemoveQuotes(a + b) == RemoveQuotes(a) + RemoveQuotes(b)
    decreases |a|
  {
    if a == [] {
      assert a + b == b;
    } else {
      var t, head := a[1..], if a[0] == '"' || a[0] == '\'' then [] else [a[0]];
      assert a == [a[0]] + t;
      assert a + b == [a[0]] + (t + b);
      calc {
        RemoveQuotes(a + b);
      ==  { RemoveQuotesCons(a[0], t + b); }
        head + RemoveQuotes(t + b);
      ==  { RemoveQuotesConcat(t, b); }
        head + (RemoveQuotes(t) + RemoveQuotes(b));
      ==  { AppendAssociative(head, RemoveQuotes(t), RemoveQuotes(b)); }
        (head + RemoveQuotes(t)) + RemoveQuotes(b);
      ==  { RemoveQuotesCons(a[0], t); }
        RemoveQuotes(a) + RemoveQuotes(b);
      }
    }
  }

  /** The reply text after `.strip()` and the two substitutions. */
  function Clean(raw: string): string
  {
    RemoveQuotes(StripNumbering(Strip(raw), true))
  }

  /** Every comma-separated piece of every line, in order. */
  function Pieces(lines: seq<string>): seq<string>
  {
    if lines == [] then []
    else Pieces(lines[..|lines| - 1]) + Split(lines[|lines| - 1], ',')
  }

  /** What one piece contributes: its stripped form, if longer than two characters. */
  function KeepOne(piece: string): seq<string>
  {
    var k := Strip(piece);
    if |k| > 0 && |k| > 2 then [k] else []
  }

  /** The stripped pieces that are kept, in order. */
  function Keep(pieces: seq<string>): seq<string>
  {
    if pieces == [] then []
    else Keep(pieces[..|pieces| - 1]) + KeepOne(pieces[|pieces| - 1])
  }

  /** The keyword list the nested split loop builds from `text`, before deduplication. */
  function Fragments(text: string): seq<string>
  {
    Keep(Pieces(Split(text, '\n')))
  }

  /** A keyword as the parser can return it. */
  predicate WellFormedKeyword(k: string)
  {
    Trimmed(k) && |k| > 2 && ',' !in k && '\n' !in k && '"' !in k && '\'' !in k
  }

  lemma {:induction false} KeepAppend(a: seq<string>, b: seq<string>)
    ensures Keep(a + b) == Keep(a) + Keep(b)
    decreases |b|
  {
    if b != [] {
      var n := |b| - 1;
      assert (a + b)[..|a + b| - 1] == a + b[..n];
      KeepAppend(a, b[..n]);
    } else {
      assert a + b == a;
    }
  }

  lemma KeepStep(pieces: seq<string>, j: nat)
    requires j < |pieces|
    ensures Keep(pieces[..j + 1]) == Keep(pieces[..j]) + KeepOne(pieces[j])
  {
    assert pieces[..j + 1][..j] == pieces[..j];
  }

  lemma PiecesStep(lines: seq<string>, i: nat)
    requires i < |lines|
    ensures Pieces(lines[..i + 1]) == Pieces(lines[..i]) + Split(lines[i], ',')
  {
    assert lines[..i + 1][..i] == lines[..i];
  }

  /** Kept fragments are stripped, longer than two characters, and use only
      characters of the pieces they come from. */
  lemma {:induction false} KeepShape(pieces: seq<string>, bound: set<char>)
    requires forall p :: p in pieces ==> CharsOf(p) <= bound
    ensures forall k :: k in Keep(pieces) ==> Trimmed(k) && |k| > 2 && CharsOf(k) <= bound
    decreases |pieces|
  {
    if pieces != [] {
      var n := |pieces| - 1;
      assert forall p :: p in pieces[..n] ==> p in pieces;
      KeepShape(pieces[..n], bound);
      var last := pieces[n];
      assert CharsOf(last) <= bound;
      assert Keep(pieces) == Keep(pieces[..n]) + KeepOne(last);
      forall k | k in KeepOne(last)
        ensures Trimmed(k) && |k| > 2 && CharsOf(k) <= bound
      {
        assert k == Strip(last);
      }
    }
  }

  /** Pieces hold no comma and only characters of their lines. */
  lemma {:induction false} PiecesShape(lines: seq<string>, bound: set<char>)
    requires forall l :: l in lines ==> CharsOf(l) <= bound
    ensures forall p :: p in Pieces(lines) ==> CharsOf(p) <= bound - {','}
    decreases |lines|
  {
    if lines != [] {
      var n := |lines| - 1;
      assert forall l :: l in lines[..n] ==> l in lines;
      PiecesShape(lines[..n], bound);
      forall p | p in Split(lines[n], ',')
        ensures CharsOf(p) <= bound - {','}
      {
        assert ',' !in p;
      }
    }
  }

  /** Every fragment of a cleaned reply is a well-formed keyword. */
  lemma FragmentsWellFormed(raw: string)
    ensures forall k :: k in Fragments(Clean(raw)) ==> WellFormedKeyword(k)
  {
    var text := Clean(raw);
    var bound := CharsOf(text) - {'\n'};
    var lines := Split(text, '\n');
    forall l | l in lines
      ensures CharsOf(l) <= bound
    {
      assert '\n' !in l;
    }
    PiecesShape(lines, bound);
    KeepShape(Pieces(lines), bound - {','});
    forall k | k in Fragments(text)
      ensures WellFormedKeyword(k)
    {
      assert CharsOf(k) <= bound - {','};
      assert '"' !in CharsOf(text) && '\'' !in CharsOf(text);
      assert ',' !in CharsOf(k) && '\n' !in CharsOf(k) && '"' !in CharsOf(k) && '\'' !in CharsOf(k);
    }
  }

  /** The inner loop over the comma-separated parts of one line: appends every
      part that is longer than two characters once stripped. */
  method AppendKept(keywords: seq<string>, parts: seq<string>) returns (extended: seq<string>)
    ensures extended == keywords + Keep(parts)
  {
    extended := keywords;
    for j := 0 to |parts|
      invariant extended == keywords + Keep(parts[..j])
    {
      var cleanKeyword := Strip(parts[j]);
      ghost var before := extended;
      if |cleanKeyword| > 0 && |cleanKeyword| > 2 {
        extended := extended + [cleanKeyword];
      }
      assert extended == before + KeepOne(parts[j]);
      KeepStep(parts, j);
      AppendAssociative(keywords, Keep(parts[..j]), KeepOne(parts[j]));
    }
    assert parts[..|parts|] == parts;
  }

  /** The outer loop over the lines of the cleaned reply, building the keyword
      list before deduplication. */
  method CollectKeywords(text: string) returns (keywords: seq<string>)
    ensures keywords == Fragments(text)
  {
    keywords := [];
    var lines := Split(text, '\n');
    for i := 0 to |lines|
      invariant keywords == Keep(Pieces(lines[..i]))
    {
      var parts := Split(lines[i], ',');
      keywords := AppendKept(keywords, parts);
      PiecesStep(lines, i);
      KeepAppend(Pieces(lines[..i]), parts);
    }
    assert lines[..|lines|] == lines;
  }

  /** The whole parse of a successful reply: the deduplicated, capped fragments,
      each of them a well-formed keyword. */
  method ParseKeywords(raw: string, cap: nat) returns (keywords: seq<string>)
    ensures IsCappedDedup(keywords, Fragments(Clean(raw)), cap)
    ensures forall k :: k in keywords ==> WellFormedKeyword(k)
  {
    var fragments := CollectKeywords(Clean(raw));
    keywords := DedupCap(fragments, cap);
    FragmentsWellFormed(raw);
  }
}

=== FILE: scoring.dfy ===
/**
 * What the three keyword analyzers share: the opportunity score in its
 * three-factor and two-factor forms, the difficulty label, the commercial-term
 * boost of estimated competition, and the scored record itself.
 *
 * Scores are real numbers. The final `round(..., 2)` on binary floating point
 * is not part of the model.
 */
module Scoring {
  import opened Wrappers
  import opened Text

  function MinReal(a: real, b: real): real
  {
    if a <= b then a else b
  }

  /** The three-factor score: 40% normalised volume (saturating at 10000), 40%
      inverted competition, 20% normalised cost per click (saturating at 10),
      times 100. Within [0, 100] whenever the inputs are in their ranges. */
  function OpportunityScore3(volume: real, competition: real, cpc: real): (score: real)
    ensures 0.0 <= volume && 0.0 <= competition <= 100.0 && 0.0 <= cpc ==> 0.0 <= score <= 100.0
  {
    100.0 * (0.4 * MinReal(volume / 10000.0, 1.0) + 0.4 * (1.0 - competition / 100.0)
             + 0.2 * MinReal(cpc / 10.0, 1.0))
  }

  /** More volume, less competition and a higher cost per click never lower the score. */
  lemma Score3Monotone(v1: real, v2: real, c1: real, c2: real, p1: real, p2: real)
    requires v1 <= v2 && c2 <= c1 && p1 <= p2
    ensures OpportunityScore3(v1, c1, p1) <= OpportunityScore3(v2, c2, p2)
  {
  }

  /** Volume beyond 10000 no longer changes the score, whatever the competition
      and the cost per click. */
  lemma Score3VolumeSaturates(v1: real, v2: real, c: real, p: real)
    requires 10000.0 <= v1 && 10000.0 <= v2
    ensures OpportunityScore3(v1, c, p) == OpportunityScore3(v2, c, p)
  {
  }

  /** A cost per click beyond 10 no longer changes the score, whatever the
      volume and the competition. */
  lemma Score3CpcSaturates(v: real, c: real, p1: real, p2: real)
    requires 10.0 <= p1 && 10.0 <= p2
    ensures OpportunityScore3(v, c, p1) == OpportunityScore3(v, c, p2)
  {
  }

  /** With both saturated, only the competition counts. */
  lemma Score3Saturates(v1: real, v2: real, c: real, p1: real, p2: real)
    requires 10000.0 <= v1 && 10000.0 <= v2 && 10.0 <= p1 && 10.0 <= p2
    ensures OpportunityScore3(v1, c, p1) == OpportunityScore3(v2, c, p2) == 100.0 - 0.4 * c
  {
    Score3VolumeSaturates(v1, v2, c, p1);
    Score3CpcSaturates(v2, c, p1, p2);
  }

  /** The two-factor score: 40% normalised volume and 60% inverted competition,
      times 100. Within [0, 100] whenever the inputs are in their ranges. */
  function OpportunityScore2(volume: real, competition: real): (score: real)
    ensures 0.0 <= volume && 0.0 <= competition <= 100.0 ==> 0.0 <= score <= 100.0
  {
    100.0 * (0.4 * MinReal(volume / 10000.0, 1.0) + 0.6 * (1.0 - competition / 100.0))
  }

  /** More volume and less competition never lower the two-factor score. */
  lemma Score2Monotone(v1: real, v2: real, c1: real, c2: real)
    requires v1 <= v2 && c2 <= c1
    ensures OpportunityScore2(v1, c1) <= OpportunityScore2(v2, c2)
  {
  }

  /** Volume beyond 10000 no longer changes the two-factor score. */
  lemma Score2Saturates(v1: real, v2: real, c: real)
    requires 10000.0 <= v1 && 10000.0 <= v2
    ensures OpportunityScore2(v1, c) == OpportunityScore2(v2, c) == 100.0 - 0.6 * c
  {
  }

  datatype Difficulty = VeryEasy | Easy | Medium | Hard | VeryHard {

    /** The label as the service reports it. */
    function Name(): string
    {
      match this
      case VeryEasy => "Very Easy"
      case Easy => "Easy"
      case Medium => "Medium"
      case Hard => "Hard"
      case VeryHard => "Very Hard"
    }

    /** Position from easiest (0) to hardest (4). */
    function Rank(): nat
    {
      match this
      case VeryEasy => 0
      case Easy => 1
      case Medium => 2
      case Hard => 3
      case VeryHard => 4
    }
  }

  /** `_get_difficulty_label`: buckets of competition with strict upper bounds
      30, 50, 70 and 85; each bucket includes its lower bound. */
  function DifficultyLabel(competition: real): (d: Difficulty)
    ensures d == VeryEasy <==> competition < 30.0
    ensures d == Easy <==> 30.0 <= competition < 50.0
    ensures d == Medium <==> 50.0 <= competition < 70.0
    ensures d == Hard <==> 70.0 <= competition < 85.0
    ensures d == VeryHard <==> 85.0 <= competition
  {
    if competition < 30.0 then VeryEasy
    else if competition < 50.0 then Easy
    else if competition < 70.0 then Medium
    else if competition < 85.0 then Hard
    else VeryHard
  }

  /** More competition never gives an easier label. */
  lemma DifficultyMonotone(a: real, b: real)
    requires a <= b
    ensures DifficultyLabel(a).Rank() <= DifficultyLabel(b).Rank()
  {
  }

  /** The boundary cases: each threshold belongs to the harder bucket. */
  lemma DifficultyBoundaries()
    ensures DifficultyLabel(29.9).Name() == "Very Easy" && DifficultyLabel(30.0).Name() == "Easy"
    ensures DifficultyLabel(49.9).Name() == "Easy" && DifficultyLabel(50.0).Name() == "Medium"
    ensures DifficultyLabel(69.9).Name() == "Medium" && DifficultyLabel(70.0).Name() == "Hard"
    ensures DifficultyLabel(84.9).Name() == "Hard" && DifficultyLabel(85.0).Name() == "Very Hard"
  {
  }

  /** Terms that mark a keyword as commercial when estimating competition. */
  const CommercialTerms: seq<string> := ["buy", "price", "cost", "deal", "discount", "cheap", "sale"]

  /** The commercial adjustment of an estimated competition: +20, capped at 95,
      when the lower-cased keyword contains a commercial term. */
  function CommercialBoost(lower: string, competition: int): (boosted: int)
    requires competition <= 95
    ensures competition <= boosted <= 95
    ensures boosted == competition <==> !ContainsAny(lower, CommercialTerms) || competition == 95
    ensures boosted <= competition + 20
    ensures ContainsAny(lower, CommercialTerms) ==> boosted == competition + 20 || boosted == 95
  {
    if ContainsAny(lower, CommercialTerms) then
      (if competition + 20 <= 95 then competition + 20 else 95)
    else competition
  }

  /** Where a record's numbers came from, as its `data_source` field says. */
  datatype Provenance = SeRankingApi | ApiFallbackEstimate | SerpApi | Estimated {
    function Tag(): string
    {
      match this
      case SeRankingApi => "SE Ranking API"
      case ApiFallbackEstimate => "Estimated (API Fallback)"
      case SerpApi => "SerpAPI"
      case Estimated => "Estimated"
    }
  }

  /** One analysed keyword. `cpc` is absent for the analyzers that do not track it,
      `source` for the one that reports no provenance. */
  datatype ScoredKeyword = ScoredKeyword(
    keyword: string,
    volume: real,
    competition: real,
    cpc: Option<real>,
    score: real,
    difficulty: Difficulty,
    source: Option<Provenance>)
}

=== FILE: se_ranking.dfy ===
/**
 * The analyzer the web service uses (`SERankingAnalyzer` in backend/app.py):
 * metrics from the SE Ranking suggestion or analysis endpoint, otherwise a
 * heuristic estimate; then the three-factor opportunity score and the
 * difficulty label.
 */
module SeRanking {
  import opened Wrappers
  import opened Text
  import opened Scoring
  import opened Remote
  import opened Arith

  const InformationalTerms: seq<string> := ["how to", "what is", "why", "tutorial"]
  const PurchaseTerms: seq<string> := ["buy", "price", "cost", "for sale"]
  const LocalTerms: seq<string> := ["near me", "local", "city"]

  /** The base volume by search intent; the first matching group wins. */
  function IntentVolume(lower: string): (base: int)
    ensures base == 2500 <==> ContainsAny(lower, InformationalTerms)
    ensures base == 1800 <==> !ContainsAny(lower, InformationalTerms) && ContainsAny(lower, PurchaseTerms)
    ensures base == 1200 <==> !ContainsAny(lower, InformationalTerms) && !ContainsAny(lower, PurchaseTerms)
                              && ContainsAny(lower, LocalTerms)
    ensures base == 1000 <==> !ContainsAny(lower, InformationalTerms) && !ContainsAny(lower, PurchaseTerms)
                              && !ContainsAny(lower, LocalTerms)
  {
    if ContainsAny(lower, InformationalTerms) then 2500
    else if ContainsAny(lower, PurchaseTerms) then 1800
    else if ContainsAny(lower, LocalTerms) then 1200
    else 1000
  }

  /** The estimated volume: the intent base, divided by one less than the word
      count (floor, at least 100) for keywords of more than three words. */
  function EstimatedVolume(keyword: string): (volume: int)
    ensures 100 <= volume <= 2500
    ensures volume <= IntentVolume(Lower(keyword))
    ensures WordCount(keyword) <= 3 ==> volume == IntentVolume(Lower(keyword))
  {
    var base := IntentVolume(Lower(keyword));
    var wc := WordCount(keyword);
    if wc > 3 then
      DivAtMost(base, wc - 1);
      if base / (wc - 1) >= 100 then base / (wc - 1) else 100
    else base
  }

  /** The range `random.randint` draws the competition from, by word count. */
  predicate InBand(draw: int, wordCount: nat)
  {
    if wordCount <= 2 then 75 <= draw <= 95
    else if wordCount == 3 then 45 <= draw <= 75
    else 15 <= draw <= 45
  }

  /** A free integer reduced into the band of `InBand` for a word count. A
      draw already in the band is kept, so every value of the band is reached. */
  function BandDraw(pick: int, wordCount: nat): (draw: int)
    ensures InBand(draw, wordCount)
    ensures InBand(pick, wordCount) ==> draw == pick
  {
    var lo, hi := if wordCount <= 2 then 75 else if wordCount == 3 then 45 else 15,
                  if wordCount <= 2 then 95 else if wordCount == 3 then 75 else 45;
    lo + (pick - lo) % (hi - lo + 1)
  }

  datatype Estimate = Estimate(volume: int, competition: int, cpc: real)

  /** `_get_enhanced_estimated_data` given its competition draw. */
  function EnhancedEstimate(keyword: string, draw: int): (e: Estimate)
    requires InBand(draw, WordCount(keyword))
    ensures e.volume == EstimatedVolume(keyword)
    ensures e.competition == CommercialBoost(Lower(keyword), draw)
    ensures 15 <= e.competition <= 95
    ensures 0.5 <= e.cpc <= 1.9
    ensures e.cpc >= e.competition as real / 50.0
    ensures e.competition >= 25 ==> e.cpc == e.competition as real / 50.0
    ensures e.competition < 25 ==> e.cpc == 0.5
  {
    var competition := CommercialBoost(Lower(keyword), draw);
    var ratio := competition as real / 50.0;
    Estimate(EstimatedVolume(keyword), competition, if ratio >= 0.5 then ratio else 0.5)
  }

  /** The three raw metric values an endpoint supplied, defaults filled in. */
  datatype Metrics = Metrics(volume: Json, competition: Json, cpc: Json)

  /** Reads the metrics out of one endpoint's object under the given
      competition key; absent when the value is not an object. */
  function ReadMetrics(value: Json, competitionKey: string): (m: Option<Metrics>)
    ensures m.Some? <==> value.JObject?
  {
    match (Get(value, "search_volume", JNum(100.0)), Get(value, competitionKey, JNum(50.0)),
           Get(value, "cpc", JNum(1.0)))
    case (Some(v), Some(c), Some(p)) => Some(Metrics(v, c, p))
    case _ => None
  }

  /** `_get_se_ranking_data` up to its estimator: the endpoint metrics, or
      `None` when it falls back to the estimate. A raised suggestion request,
      or a 200 suggestion reply that does not decode, goes straight to the
      estimate; a non-empty suggestion list's first entry decides; otherwise
      the analysis reply's object decides; anything else gives the estimate. */
  function FetchMetrics(suggestions: HttpReply, analysis: HttpReply): (m: Option<Metrics>)
    ensures suggestions.Raised? ==> m.None?
    ensures suggestions.Reply? && suggestions.status == 200 && suggestions.body.None? ==> m.None?
    ensures DecodedOk(suggestions) && suggestions.body.value.JList? && |suggestions.body.value.items| > 0 ==>
              (m.Some? <==> suggestions.body.value.items[0].JObject?)
    ensures suggestions.Reply? && (suggestions.status == 200 ==> suggestions.body.Some?)
            && !(DecodedOk(suggestions) && suggestions.body.value.JList? && |suggestions.body.value.items| > 0) ==>
              (m.Some? <==> DecodedOk(analysis) && analysis.body.value.JObject?)
    ensures m.Some? ==> DecodedOk(suggestions) || DecodedOk(analysis)
  {
    if suggestions.Raised? then None
    else if suggestions.status == 200 && suggestions.body.None? then None
    else if DecodedOk(suggestions) && suggestions.body.value.JList? && |suggestions.body.value.items| > 0 then
      ReadMetrics(suggestions.body.value.items[0], "competition_level")
    else if analysis.Raised? then None
    else if DecodedOk(analysis) then ReadMetrics(analysis.body.value, "competition")
    else None
  }

  /** A non-empty list from the suggestion endpoint decides alone: its first
      entry supplies the metrics, or the estimate is used when that entry is
      not an object; the analysis endpoint is not consulted. */
  lemma SuggestionsFirst(suggestions: HttpReply, analysis: HttpReply, analysis': HttpReply)
    requires DecodedOk(suggestions) && suggestions.body.value.JList? && |suggestions.body.value.items| > 0
    ensures FetchMetrics(suggestions, analysis) == FetchMetrics(suggestions, analysis')
    ensures FetchMetrics(suggestions, analysis).Some? <==> suggestions.body.value.items[0].JObject?
  {
  }

  /** Missing fields take the defaults 100, 50 and 1.0, on either endpoint. */
  lemma MetricDefaults(value: Json, competitionKey: string)
    requires value.JObject? && value.fields.Keys !! {"search_volume", competitionKey, "cpc"}
    ensures ReadMetrics(value, competitionKey) == Some(Metrics(JNum(100.0), JNum(50.0), JNum(1.0)))
  {
  }

  /** The analysis endpoint is asked only when the suggestion endpoint answered
      with something other than a non-empty list, and its object supplies the
      metrics under the key "competition". */
  lemma AnalysisSecond(suggestions: HttpReply, analysis: HttpReply)
    requires suggestions.Reply? && (suggestions.status == 200 ==> suggestions.body.Some?)
    requires !(DecodedOk(suggestions) && suggestions.body.value.JList? && |suggestions.body.value.items| > 0)
    requires DecodedOk(analysis)
    ensures FetchMetrics(suggestions, analysis) == ReadMetrics(analysis.body.value, "competition")
  {
  }

  /** No metrics unless one endpoint answered 200 with a decodable body. */
  lemma NoMetricsWithoutSuccess(suggestions: HttpReply, analysis: HttpReply)
    requires !DecodedOk(suggestions) && !DecodedOk(analysis)
    ensures FetchMetrics(suggestions, analysis) == None
  {
  }

  /** Everything the analyzer learns from outside for one keyword: the two
      endpoint replies and the competition draw of the estimator. */
  datatype KeywordEnv = KeywordEnv(suggestions: HttpReply, analysis: HttpReply, draw: int)

  predicate DrawFits(keyword: string, env: KeywordEnv)
  {
    InBand(env.draw, WordCount(keyword))
  }

  function EstimatedRecord(keyword: string, e: Estimate, source: Provenance): (r: ScoredKeyword)
  {
    var volume := e.volume as real;
    var competition := e.competition as real;
    ScoredKeyword(keyword, volume, competition, Some(e.cpc),
                  OpportunityScore3(volume, competition, e.cpc), DifficultyLabel(competition), Some(source))
  }

  /** One iteration of `analyze`: the endpoint metrics when all three are
      numbers; the estimate otherwise. A fetch that fails without raising is
      reported as "SE Ranking API" all the same; only metrics that break the
      score computation lead to "Estimated (API Fallback)". */
  function AnalyzeOne(keyword: string, env: KeywordEnv): (r: ScoredKeyword)
    requires DrawFits(keyword, env)
    ensures r.keyword == keyword && r.cpc.Some? && r.source.Some?
    ensures r.score == OpportunityScore3(r.volume, r.competition, r.cpc.value)
    ensures r.difficulty == DifficultyLabel(r.competition)
    ensures r.source == Some(ApiFallbackEstimate) <==>
              var m := FetchMetrics(env.suggestions, env.analysis);
              m.Some? && !(m.value.volume.JNum? && m.value.competition.JNum? && m.value.cpc.JNum?)
    ensures r.source == Some(ApiFallbackEstimate) || FetchMetrics(env.suggestions, env.analysis).None? ==>
              100.0 <= r.volume <= 2500.0 && 15.0 <= r.competition <= 95.0 && 0.5 <= r.cpc.value <= 1.9
              && 0.0 <= r.score <= 100.0
    ensures FetchMetrics(env.suggestions, env.analysis).Some? ==>
              var m := FetchMetrics(env.suggestions, env.analysis).value;
              m.volume.JNum? && m.competition.JNum? && m.cpc.JNum? ==>
                r.volume == m.volume.n && r.competition == m.competition.n && r.cpc == Some(m.cpc.n)
                && r.source == Some(SeRankingApi)
  {
    match FetchMetrics(env.suggestions, env.analysis)
    case None => EstimatedRecord(keyword, EnhancedEstimate(keyword, env.draw), SeRankingApi)
    case Some(Metrics(JNum(volume), JNum(competition), JNum(cpc))) =>
      ScoredKeyword(keyword, volume, competition, Some(cpc), OpportunityScore3(volume, competition, cpc),
                    DifficultyLabel(competition), Some(SeRankingApi))
    case Some(_) => EstimatedRecord(keyword, EnhancedEstimate(keyword, env.draw), ApiFallbackEstimate)
  }

  /** When the request itself fails, the record holds the estimate yet is
      labelled "SE Ranking API". */
  lemma ConnectionErrorLabelledAsApi(keyword: string, env: KeywordEnv)
    requires DrawFits(keyword, env) && env.suggestions.Raised?
    ensures AnalyzeOne(keyword, env).source == Some(SeRankingApi)
    ensures AnalyzeOne(keyword, env).volume == EstimatedVolume(keyword) as real
  {
  }

  /** `analyze`: one record per keyword, in input order. */
  method Analyze(keywords: seq<string>, envs: seq<KeywordEnv>) returns (records: seq<ScoredKeyword>)
    requires |envs| == |keywords|
    requires forall i :: 0 <= i < |keywords| ==> DrawFits(keywords[i], envs[i])
    ensures |records| == |keywords|
    ensures forall i :: 0 <= i < |keywords| ==> records[i] == AnalyzeOne(keywords[i], envs[i])
    ensures forall i :: 0 <= i < |keywords| ==> records[i].keyword == keywords[i]
  {
    records := [];
    for i := 0 to |keywords|
      invariant |records| == i
      invariant forall j :: 0 <= j < i ==> records[j] == AnalyzeOne(keywords[j], envs[j])
    {
      records := records + [AnalyzeOne(keywords[i], envs[i])];
    }
  }
}

=== FILE: seo_heuristic.dfy ===
/**
 * The offline analyzer (`SEOAnalyzer` in backend/seo_analyzer.py): volume
 * drawn from the range of the first phrase pattern the keyword contains,
 * competition drawn by word count and raised for commercial terms, the
 * two-factor score and the difficulty label.
 */
module SeoHeuristic {
  import opened Wrappers
  import opened Text
  import opened Scoring
  import opened Arith

  /** A phrase pattern and the range its volume is drawn from. */
  datatype VolumeRange = VolumeRange(pattern: string, low: int, high: int)

  /** `search_volume_ranges`, in insertion order. */
  const VolumeRanges: seq<VolumeRange> := [
    VolumeRange("best", 1000, 10000),
    VolumeRange("how to", 500, 5000),
    VolumeRange("for beginners", 300, 3000),
    VolumeRange("near me", 200, 4000),
    VolumeRange("review", 200, 2500),
    VolumeRange("cost", 400, 3500),
    VolumeRange("vs", 300, 2000),
    VolumeRange("free", 800, 6000),
    VolumeRange("2024", 100, 1500),
    VolumeRange("top 10", 600, 5000)
  ]

  /** Every range lies within [100, 10000]. */
  lemma RangesWithinBounds()
    ensures forall k :: 0 <= k < |VolumeRanges| ==> 100 <= VolumeRanges[k].low <= VolumeRanges[k].high <= 10000
  {
  }

  /** The index of the first range at or after `from` whose pattern `lower` contains. */
  function FirstMatch(lower: string, from: nat): (k: Option<nat>)
    requires from <= |VolumeRanges|
    ensures k.Some? ==> from <= k.value < |VolumeRanges| && Contains(lower, VolumeRanges[k.value].pattern)
    ensures k.Some? ==> forall j :: from <= j < k.value ==> !Contains(lower, VolumeRanges[j].pattern)
    ensures k.None? ==> forall j :: from <= j < |VolumeRanges| ==> !Contains(lower, VolumeRanges[j].pattern)
    decreases |VolumeRanges| - from
  {
    if from == |VolumeRanges| then None
    else if Contains(lower, VolumeRanges[from].pattern) then Some(from)
    else FirstMatch(lower, from + 1)
  }

  /** The volume draw lies in the range the first matching pattern selects
      (any draw when no pattern matches, since none is made). */
  predicate VolumeDrawFits(keyword: string, draw: int)
  {
    match FirstMatch(Lower(keyword), 0)
    case None => true
    case Some(k) => VolumeRanges[k].low <= draw <= VolumeRanges[k].high
  }

  /** `_estimate_search_volume` as a value: the draw of the first matching
      pattern, else 100; divided by the word count (floor, at least 10) for
      keywords of more than three words. */
  function SearchVolume(keyword: string, draw: int): int
  {
    var base := if FirstMatch(Lower(keyword), 0).Some? then draw else 100;
    var wc := WordCount(keyword);
    if wc > 3 then (if base / wc >= 10 then base / wc else 10) else base
  }

  /** The volume always lies in [10, 10000]; with no pattern and at most three
      words it is 100. */
  lemma SearchVolumeBounds(keyword: string, draw: int)
    requires VolumeDrawFits(keyword, draw)
    ensures 10 <= SearchVolume(keyword, draw) <= 10000
    ensures FirstMatch(Lower(keyword), 0).None? && WordCount(keyword) <= 3 ==> SearchVolume(keyword, draw) == 100
  {
    RangesWithinBounds();
    var base := if FirstMatch(Lower(keyword), 0).Some? then draw else 100;
    assert 100 <= base <= 10000;
    var wc := WordCount(keyword);
    if wc > 3 {
      DivAtMost(base, wc);
    }
  }

  /** The loop over the ranges, leaving at the first pattern the keyword contains. */
  method EstimateSearchVolume(keyword: string, draw: int) returns (volume: int)
    requires VolumeDrawFits(keyword, draw)
    ensures volume == SearchVolume(keyword, draw)
    ensures 10 <= volume <= 10000
  {
    var base := 100;
    var lower := Lower(keyword);
    var i := 0;
    while i < |VolumeRanges|
      invariant 0 <= i <= |VolumeRanges|
      invariant FirstMatch(lower, 0) == FirstMatch(lower, i)
      invariant base == 100
    {
      if Contains(lower, VolumeRanges[i].pattern) {
        base := draw;
        break;
      }
      i := i + 1;
    }
    assert base == (if FirstMatch(lower, 0).Some? then draw else 100);
    var wordCount := WordCount(keyword);
    if wordCount > 3 {
      base := if base / wordCount >= 10 then base / wordCount else 10;
    }
    volume := base;
    SearchVolumeBounds(keyword, draw);
  }

  /** The range `random.randint` draws the competition from, by word count. */
  predicate CompetitionDrawFits(keyword: string, draw: int)
  {
    var wc := WordCount(keyword);
    if wc <= 2 then 70 <= draw <= 95
    else if wc == 3 then 40 <= draw <= 75
    else 10 <= draw <= 50
  }

  /** `_estimate_competition` given its draw. */
  function EstimateCompetition(keyword: string, draw: int): (competition: int)
    requires CompetitionDrawFits(keyword, draw)
    ensures 10 <= competition <= 95
    ensures draw <= competition
    ensures !ContainsAny(Lower(keyword), CommercialTerms) ==> competition == draw
    ensures WordCount(keyword) <= 2 ==> 70 <= competition
    ensures competition <= draw + 20
    ensures ContainsAny(Lower(keyword), CommercialTerms) ==> competition == draw + 20 || competition == 95
    ensures competition == CommercialBoost(Lower(keyword), draw)
  {
    CommercialBoost(Lower(keyword), draw)
  }

  /** The draws for one keyword. */
  datatype Draws = Draws(volume: int, competition: int)

  /** `analyze`: one record per keyword, in input order, with no provenance. */
  method Analyze(keywords: seq<string>, draws: seq<Draws>) returns (records: seq<ScoredKeyword>)
    requires |draws| == |keywords|
    requires forall i :: 0 <= i < |keywords| ==> VolumeDrawFits(keywords[i], draws[i].volume)
    requires forall i :: 0 <= i < |keywords| ==> CompetitionDrawFits(keywords[i], draws[i].competition)
    ensures |records| == |keywords|
    ensures forall i :: 0 <= i < |keywords| ==>
              var r := records[i];
              r.keyword == keywords[i] && r.source.None? && r.cpc.None?
              && r.volume == SearchVolume(keywords[i], draws[i].volume) as real
              && r.competition == EstimateCompetition(keywords[i], draws[i].competition) as real
              && r.score == OpportunityScore2(r.volume, r.competition)
              && r.difficulty == DifficultyLabel(r.competition)
              && 0.0 <= r.score <= 100.0
  {
    records := [];
    for i := 0 to |keywords|
      invariant |records| == i
      invariant forall j :: 0 <= j < i ==>
                  var r := records[j];
                  r.keyword == keywords[j] && r.source.None? && r.cpc.None?
                  && r.volume == SearchVolume(keywords[j], draws[j].volume) as real
                  && r.competition == EstimateCompetition(keywords[j], draws[j].competition) as real
                  && r.score == OpportunityScore2(r.volume, r.competition)
                  && r.difficulty == DifficultyLabel(r.competition)
                  && 0.0 <= r.score <= 100.0
    {
      var volume := EstimateSearchVolume(keywords[i], draws[i].volume);
      var competition := EstimateCompetition(keywords[i], draws[i].competition);
      var v, c := volume as real, competition as real;
      records := records + [ScoredKeyword(keywords[i], v, c, None, OpportunityScore2(v, c), DifficultyLabel(c), None)];
    }
  }
}

=== FILE: standalone_expander.dfy ===
/**
 * The stand-alone keyword expander (`KeywordExpander` in
 * backend/keyword_expander.py): the same routing as the web service's, with a
 * larger reply cap and a fallback catalogue that grows per city.
 */
module StandaloneExpander {
  import opened Text
  import opened Dedup
  import opened ResponseParse
  import opened Expansion

  /** At most this many keywords are kept from a generated reply. */
  const ReplyCap: nat := 100

  /** At most this many fallback phrases are returned. */
  const MockCap: nat := 80

  /** The fixed part of the fallback catalogue, in source order. */
  const BaseTemplates: seq<Template> := [
      Template("best ", ""), Template("how to ", ""), Template("", " for beginners"),
      Template("affordable ", ""), Template("", " near me"), Template("", " 2024"),
      Template("why ", " is important"), Template("", " vs alternatives"),
      Template("free ", ""), Template("professional ", ""),
      Template("", " tips and tricks"), Template("", " best practices"),
      Template("how much does ", " cost"), Template("", " reviews"),
      Template("is ", " worth it"), Template("learn ", " online"),
      Template("", " course"), Template("", " tutorial"), Template("what is ", ""),
      Template("benefits of ", ""), Template("", " guide"), Template("", " strategies"),
      Template("", " tools"), Template("", " software"), Template("", " services"),
      Template("top 10 ", ""), Template("", " ideas"), Template("", " examples"),
      Template("", " techniques"), Template("", " for small business")
    ]

  const Cities: seq<string> := ["new york", "london", "tokyo", "dubai", "sydney", "paris", "berlin"]

  /** The four geographic templates added for one city. */
  function CityTemplates(city: string): seq<Template>
  {
    [ Template("", " in " + city), Template("best ", " " + city),
      Template(city + " ", " services"), Template("", " near " + city) ]
  }

  /** The geographic templates for `cities`, city by city. */
  function AllCityTemplates(cities: seq<string>): (ts: seq<Template>)
    ensures |ts| == 4 * |cities|
  {
    if cities == [] then []
    else AllCityTemplates(cities[..|cities| - 1]) + CityTemplates(cities[|cities| - 1])
  }

  /** The whole fallback catalogue. */
  function Catalogue(): seq<Template>
  {
    BaseTemplates + AllCityTemplates(Cities)
  }

  /** The pattern list grown in place: the base phrases, then four more per city. */
  method MockPatterns(seed: string) returns (patterns: seq<string>)
    ensures patterns == Instances(Catalogue(), seed)
    ensures |patterns| == 58
  {
    patterns := Instances(BaseTemplates, seed);
    for i := 0 to |Cities|
      invariant patterns == Instances(BaseTemplates + AllCityTemplates(Cities[..i]), seed)
    {
      var city := Cities[i];
      patterns := patterns + [seed + " in " + city, "best " + seed + " " + city,
                              city + " " + seed + " services", seed + " near " + city];
      assert Cities[..i + 1][..i] == Cities[..i];
      CityInstances(seed, city);
      InstancesAppend(BaseTemplates + AllCityTemplates(Cities[..i]), CityTemplates(city), seed);
      assert BaseTemplates + AllCityTemplates(Cities[..i + 1])
          == (BaseTemplates + AllCityTemplates(Cities[..i])) + CityTemplates(city);
    }
    assert Cities[..|Cities|] == Cities;
  }

  lemma InstancesAppend(a: seq<Template>, b: seq<Template>, seed: string)
    ensures Instances(a + b, seed) == Instances(a, seed) + Instances(b, seed)
  {
  }

  lemma CityInstances(seed: string, city: string)
    ensures Instances(CityTemplates(city), seed)
      == [seed + " in " + city, "best " + seed + " " + city,
          city + " " + seed + " services", seed + " near " + city]
  {
    var ts := CityTemplates(city);
    var ps := Instances(ts, seed);
    assert ps[0] == "" + seed + (" in " + city) == seed + " in " + city;
    assert ps[1] == "best " + seed + (" " + city) == "best " + seed + " " + city;
    assert ps[2] == (city + " ") + seed + " services" == city + " " + seed + " services";
    assert ps[3] == "" + seed + (" near " + city) == seed + " near " + city;
  }

  /** `_generate_mock_keywords(seed)`: whatever `list(set(patterns))[:80]` returns. */
  ghost predicate IsMockOutput(keywords: seq<string>, seed: string)
  {
    IsCappedDedup(keywords, Instances(Catalogue(), seed), MockCap)
  }

  /** `_generate_mock_keywords`: the 58 patterns never reach the cap of 80, so the
      result is exactly the set of distinct patterns, each containing the seed. */
  method MockKeywords(seed: string) returns (keywords: seq<string>)
    ensures IsMockOutput(keywords, seed)
    ensures Distinct(keywords) && Elements(keywords) == Elements(Instances(Catalogue(), seed))
    ensures |keywords| <= 58
    ensures forall k :: k in keywords ==> Contains(k, seed)
  {
    var patterns := MockPatterns(seed);
    keywords := DedupCap(patterns, MockCap);
    ElementsCard(patterns);
    InstancesContainSeed(Catalogue(), seed);
  }

  /** Every city of the list appears in the fallback as "{seed} in {city}". */
  lemma MockCoversCities(keywords: seq<string>, seed: string)
    requires IsMockOutput(keywords, seed)
    ensures forall city :: city in Cities ==> seed + " in " + city in keywords
  {
    var patterns := Instances(Catalogue(), seed);
    ElementsCard(patterns);
    forall city | city in Cities
      ensures seed + " in " + city in keywords
    {
      var i :| 0 <= i < |Cities| && Cities[i] == city;
      CityPhraseInCatalogue(seed, i);
    }
  }

  lemma CityPhraseInCatalogue(seed: string, i: nat)
    requires i < |Cities|
    ensures seed + " in " + Cities[i] in Instances(Catalogue(), seed)
  {
    var patterns := Instances(Catalogue(), seed);
    CityTemplateAt(Cities, i);
    assert Catalogue()[|BaseTemplates| + 4 * i] == Template("", " in " + Cities[i]);
    assert patterns[|BaseTemplates| + 4 * i] == "" + seed + " in " + Cities[i];
    assert "" + seed + " in " + Cities[i] == seed + " in " + Cities[i];
  }

  /** The "in {city}" template of the i-th city opens that city's group. */
  lemma {:induction false} CityTemplateAt(cities: seq<string>, i: nat)
    requires i < |cities|
    ensures AllCityTemplates(cities)[4 * i] == Template("", " in " + cities[i])
    decreases |cities|
  {
    var n := |cities| - 1;
    if i < n {
      assert cities[..n][i] == cities[i];
      CityTemplateAt(cities[..n], i);
    }
  }

  /** The geographic templates add a word around the seed, whatever the city
      (the empty city included). */
  lemma {:induction false} CityTemplatesHaveAffixWords(cities: seq<string>)
    ensures AllHaveAffixWords(AllCityTemplates(cities))
    decreases |cities|
  {
    if cities != [] {
      var city := cities[|cities| - 1];
      CityTemplatesHaveAffixWords(cities[..|cities| - 1]);
      var ts := CityTemplates(city);
      assert ts[0].after[1] == 'i' && ts[1].before[0] == 'b';
      assert ts[2].after[1] == 's' && ts[3].after[1] == 'n';
      AllHaveAffixWordsConcat(AllCityTemplates(cities[..|cities| - 1]), ts);
    }
  }

  lemma BaseHasAffixWords()
    ensures AllHaveAffixWords(BaseTemplates)
  {
    BaseHasAffixWordsFrom0();
    BaseHasAffixWordsFrom10();
    BaseHasAffixWordsFrom20();
  }

  // The base list checked ten templates at a time.
  lemma BaseHasAffixWordsFrom0()
    ensures forall i :: 0 <= i < 10 ==> HasAffixWord(BaseTemplates[i])
  {
  }

  lemma BaseHasAffixWordsFrom10()
    ensures forall i :: 10 <= i < 20 ==> HasAffixWord(BaseTemplates[i])
  {
  }

  lemma BaseHasAffixWordsFrom20()
    ensures forall i :: 20 <= i < 30 ==> HasAffixWord(BaseTemplates[i])
  {
  }

  /** Every template of the fallback catalogue adds a word around the seed. */
  lemma CatalogueHasAffixWords()
    ensures AllHaveAffixWords(Catalogue())
  {
    BaseHasAffixWords();
    CityTemplatesHaveAffixWords(Cities);
    AllHaveAffixWordsConcat(BaseTemplates, AllCityTemplates(Cities));
  }

  /** What `expand(seed)` returns for a given backend outcome: the parsed reply
      when generation succeeded, the fallback list otherwise. */
  ghost predicate IsExpansion(keywords: seq<string>, seed: string, outcome: Outcome)
  {
    if outcome.Generated? then
      IsCappedDedup(keywords, Fragments(Clean(outcome.text)), ReplyCap)
      && forall k :: k in keywords ==> WellFormedKeyword(k)
    else IsMockOutput(keywords, seed)
  }

  /** `expand(seed)`: the parsed reply (at most 100 keywords) when generation
      succeeded, the fallback list when the probe or the generation failed. */
  method Expand(seed: string, outcome: Outcome) returns (keywords: seq<string>)
    ensures IsExpansion(keywords, seed, outcome)
    ensures outcome.Generated? ==>
      IsCappedDedup(keywords, Fragments(Clean(outcome.text)), ReplyCap)
      && forall k :: k in keywords ==> WellFormedKeyword(k)
    ensures !outcome.Generated? ==> IsMockOutput(keywords, seed)
    ensures |keywords| <= 100
  {
    match outcome
    case ProbeFailed =>
      keywords := MockKeywords(seed);
    case GenerationFailed =>
      keywords := MockKeywords(seed);
    case Generated(text) =>
      keywords := ParseKeywords(text, ReplyCap);
  }

  /** Every keyword an expansion returns is longer than two characters and has
      at least one word: a parsed one is stripped and passed the length filter,
      and a fallback one carries at least three characters and a word from its
      template. */
  lemma ExpansionHasWords(keywords: seq<string>, seed: string, outcome: Outcome)
    requires IsExpansion(keywords, seed, outcome)
    ensures forall k :: k in keywords ==> |k| > 2 && WordCount(k) >= 1
  {
    if outcome.Generated? {
      forall k | k in keywords
        ensures |k| > 2 && WordCount(k) >= 1
      {
        NonSpaceHasWord(k, 0);
      }
    } else {
      CatalogueHasAffixWords();
      InstancesHaveWords(Catalogue(), seed);
    }
  }
}

=== FILE: text.dfy ===
/**
 * The Python string operations the keyword pipeline is built from:
 * `str.isspace`, `str.strip()`, `str.split(sep)`, `len(str.split())`,
 * `str.lower()` and the substring test `needle in haystack`.
 */
module Text {

  /** Python's `str.isspace()` on one character: the whitespace that `strip()`,
      `split()` and the regular-expression class `\s` recognise. */
  predicate IsSpace(c: char)
  {
    c == ' ' || ('\t' <= c <= '\r') || ('\U{1c}' <= c <= '\U{1f}')
    || c == '\U{85}' || c == '\U{a0}' || c == '\U{1680}'
    || ('\U{2000}' <= c <= '\U{200a}') || c == '\U{2028}' || c == '\U{2029}'
    || c == '\U{202f}' || c == '\U{205f}' || c == '\U{3000}'
  }

  /** The set of characters occurring in `s`. */
  function CharsOf(s: string): set<char>
  {
    set c | c in s
  }

  /** No whitespace at either end: what `str.strip()` leaves behind. */
  predicate Trimmed(s: string)
  {
    |s| == 0 || (!IsSpace(s[0]) && !IsSpace(s[|s| - 1]))
  }

  /** `str.lstrip()`: drops the leading whitespace, nothing else. */
  function TrimStart(s: string): (r: string)
    ensures |r| <= |s| && r == s[|s| - |r|..]
    ensures forall i :: 0 <= i < |s| - |r| ==> IsSpace(s[i])
    ensures r == [] || !IsSpace(r[0])
    decreases |s|
  {
    if |s| > 0 && IsSpace(s[0]) then TrimStart(s[1..]) else s
  }

  /** `str.rstrip()`: drops the trailing whitespace, nothing else. */
  function TrimEnd(s: string): (r: string)
    ensures |r| <= |s| && r == s[..|r|]
    ensures forall i :: |r| <= i < |s| ==> IsSpace(s[i])
    ensures r == [] || !IsSpace(r[|r| - 1])
    decreases |s|
  {
    if |s| > 0 && IsSpace(s[|s| - 1]) then TrimEnd(s[..|s| - 1]) else s
  }

  /** `str.strip()` with no argument: no whitespace is left at either end and
      only characters of `s` are kept. */
  function Strip(s: string): (r: string)
    ensures Trimmed(r)
    ensures CharsOf(r) <= CharsOf(s)
  {
    var t := TrimStart(s);
    var r := TrimEnd(t);
    assert forall c :: c in r ==> c in t;
    assert forall c :: c in t ==> c in s;
    assert r != [] ==> r[0] == t[0];
    r
  }

  /** Stripping removes only whitespace from the ends: the result is empty
      exactly when `s` is all whitespace, and a trimmed string is left alone. */
  lemma StripRemovesOnlyEnds(s: string)
    ensures Strip(s) == [] <==> forall i :: 0 <= i < |s| ==> IsSpace(s[i])
    ensures Trimmed(s) ==> Strip(s) == s
  {
    var t := TrimStart(s);
    assert t != [] ==> !IsSpace(t[0]);
  }

  /** With `lo` the length of the leading whitespace, the stripped string is
      the infix of `s` that starts at `lo`. */
  lemma StripIsInfix(s: string, lo: nat)
    requires lo == |s| - |TrimStart(s)|
    ensures lo + |Strip(s)| <= |s|
    ensures forall i :: 0 <= i < |Strip(s)| ==> Strip(s)[i] == s[lo + i]
  {
    var t := TrimStart(s);
    var r := TrimEnd(t);
    assert Strip(s) == r;
    IndexInfix(s, t, r, lo);
  }

  /** What surrounds that infix in `s` is whitespace only. */
  lemma StripDropsOnlyWhitespace(s: string, lo: nat)
    requires lo == |s| - |TrimStart(s)|
    ensures forall i :: 0 <= i < lo ==> IsSpace(s[i])
    ensures forall i :: lo + |Strip(s)| <= i < |s| ==> IsSpace(s[i])
  {
    var t := TrimStart(s);
    var r := TrimEnd(t);
    assert Strip(s) == r;
    TailSpaces(s, t, r);
  }

  lemma IndexInfix(s: string, t: string, r: string, lo: nat)
    requires lo + |t| == |s| && t == s[lo..] && |r| <= |t| && r == t[..|r|]
    ensures forall i :: 0 <= i < |r| ==> r[i] == s[lo + i]
  {
    forall i | 0 <= i < |r|
      ensures r[i] == s[lo + i]
    {
      assert r[i] == t[i];
    }
  }

  lemma TailSpaces(s: string, t: string, r: string)
    requires |t| <= |s| && t == s[|s| - |t|..] && |r| <= |t|
    requires forall j :: |r| <= j < |t| ==> IsSpace(t[j])
    ensures forall i :: |s| - |t| + |r| <= i < |s| ==> IsSpace(s[i])
  {
    var lo := |s| - |t|;
    forall i | lo + |r| <= i < |s|
      ensures IsSpace(s[i])
    {
      assert s[i] == t[i - lo];
    }
  }

  /** The first position of `c` in `s`. */
  function IndexOf(s: string, c: char): (i: nat)
    requires c in s
    ensures i < |s| && s[i] == c && c !in s[..i]
  {
    if s[0] == c then 0 else 1 + IndexOf(s[1..], c)
  }

  /** `s.split(c)` for a one-character separator: the pieces between consecutive
      occurrences of `c`, in order; a string without `c` is one piece. */
  function Split(s: string, c: char): (pieces: seq<string>)
    ensures |pieces| >= 1
    ensures forall p :: p in pieces ==> c !in p && CharsOf(p) <= CharsOf(s)
    decreases |s|
  {
    if c !in s then [s]
    else
      var i := IndexOf(s, c);
      var rest := Split(s[i + 1..], c);
      assert CharsOf(s[i + 1..]) <= CharsOf(s);
      assert CharsOf(s[..i]) <= CharsOf(s);
      [s[..i]] + rest
  }

  /** `c.join(pieces)`: the inverse of `Split`. */
  function Join(pieces: seq<string>, c: char): string
    requires |pieces| >= 1
  {
    if |pieces| == 1 then pieces[0] else pieces[0] + [c] + Join(pieces[1..], c)
  }

  /** Splitting loses nothing: joining the pieces back gives the original text. */
  lemma {:induction false} SplitJoin(s: string, c: char)
    ensures Join(Split(s, c), c) == s
    decreases |s|
  {
    if c in s {
      var i := IndexOf(s, c);
      var rest := Split(s[i + 1..], c);
      SplitAtFirst(s, c);
      assert Split(s, c) == [s[..i]] + rest;
      JoinCons(s[..i], rest, c);
      assert Join(Split(s, c), c) == s[..i] + [c] + Join(rest, c);
      SplitJoin(s[i + 1..], c);
      SliceAround(s, i);
    }
  }

  lemma SliceAround(s: string, i: nat)
    requires i < |s|
    ensures s == s[..i] + [s[i]] + s[i + 1..]
  {
  }

  /** One step of `Split`: the piece before the first separator, then the split of the rest. */
  lemma SplitAtFirst(s: string, c: char)
    requires c in s
    ensures Split(s, c) == [s[..IndexOf(s, c)]] + Split(s[IndexOf(s, c) + 1..], c)
  {
  }

  lemma JoinCons(first: string, rest: seq<string>, c: char)
    requires |rest| >= 1
    ensures Join([first] + rest, c) == first + [c] + Join(rest, c)
  {
    assert ([first] + rest)[1..] == rest;
  }

  /** A word of `str.split()` begins at position `i`. */
  predicate StartsWord(s: string, i: nat)
    requires i < |s|
  {
    !IsSpace(s[i]) && (i == 0 || IsSpace(s[i - 1]))
  }

  /** `len(s.split())`: the number of maximal runs of non-whitespace characters. */
  function WordCount(s: string): (n: nat)
    ensures n <= |s|
  {
    if |s| == 0 then 0
    else WordCount(s[..|s| - 1]) + (if StartsWord(s, |s| - 1) then 1 else 0)
  }

  /** A string has no words exactly when it is all whitespace. */
  lemma {:induction false} NoWordsAllSpace(s: string)
    ensures WordCount(s) == 0 <==> forall i :: 0 <= i < |s| ==> IsSpace(s[i])
    decreases |s|
  {
    if |s| > 0 {
      var n := |s| - 1;
      NoWordsAllSpace(s[..n]);
      if !IsSpace(s[n]) {
        NonSpaceHasWord(s, n);
      }
    }
  }

  /** A string with a non-whitespace character has at least one word. */
  lemma {:induction false} NonSpaceHasWord(s: string, i: nat)
    requires i < |s| && !IsSpace(s[i])
    ensures WordCount(s) >= 1
    decreases |s|
  {
    var n := |s| - 1;
    if i < n {
      NonSpaceHasWord(s[..n], i);
    } else if !StartsWord(s, n) {
      NonSpaceHasWord(s[..n], n - 1);
    }
  }

  /** `str.lower()` on one character. Only ASCII letters are folded: every term
      the scorers look for is lower-case ASCII, and no other character lowers to
      a string that could complete one of those terms. */
  function LowerChar(c: char): char
  {
    if 'A' <= c <= 'Z' then (c as int + 32) as char else c
  }

  /** `str.lower()`. */
  function Lower(s: string): (r: string)
    ensures |r| == |s|
  {
    seq(|s|, i requires 0 <= i < |s| => LowerChar(s[i]))
  }

  /** Python's `needle in haystack` for strings. */
  predicate Contains(haystack: string, needle: string)
    decreases |haystack|
  {
    |needle| <= |haystack|
    && (haystack[..|needle|] == needle || Contains(haystack[1..], needle))
  }

  /** A string contains whatever is spliced into it. */
  lemma {:induction false} ContainsInfix(before: string, needle: string, after: string)
    ensures Contains(before + needle + after, needle)
    decreases |before|
  {
    var s := before + needle + after;
    if before == [] {
      assert s[..|needle|] == needle;
    } else {
      ContainsInfix(before[1..], needle, after);
      assert s[1..] == before[1..] + needle + after;
    }
  }

  /** Python's `any(term in s for term in terms)`. */
  predicate ContainsAny(s: string, terms: seq<string>)
  {
    exists j :: 0 <= j < |terms| && Contains(s, terms[j])
  }
}

=== FILE: wrappers.dfy ===
/** The optional-value datatype used throughout the model. */
module Wrappers {

  datatype Option<+T> = None | Some(value: T) {

    /** The wrapped value, or `default` when there is none. */
    function GetOr(default: T): T
    {
      match this
      case Some(v) => v
      case None => default
    }
  }
}
